=== FILE: README.md ===
# CJEU court-case crawl and merge, modelled in Dafny

The repository has two scripts that feed a dataset of CJEU (Court of Justice of the
European Union) judgments in Dutch. Both find CELEX numbers (EUR-Lex document
identifiers) on CURIA listing pages. Both then fetch each document's Dutch text from
EUR-Lex and publish `{URL, Content, Source}` rows.

- `CJEU_Scraper.py` is the batch scraper. It works as follows:
  - It finds identifiers with the regex `6\d{4}[A-Z]\d{4}`.
  - It scrapes the static listing pages only on a first run.
  - It keeps a JSON checkpoint of processed identifiers.
  - It works through `sorted(found - processed)` in batches of 200.
  - It pushes every non-empty batch and saves the checkpoint only after a successful push.
  - It stops at the first failed push.
- `update_cases.py` is the updater. It works as follows:
  - It prefers the `uri` and then the `CELEX` query parameter of each link.
  - It captures the identifier after `CELEX[:=]?`, case-insensitively.
  - It resolves the Dutch page through the English one, or through a URL template.
  - It skips URLs the dataset already holds.
  - It pushes the existing columns followed by the new ones.

The model is functional. HTTP responses, the parsed HTML, the Hugging Face calls and the
checkpoint file are inputs. They are given as follows:

- A fetch outcome is `Option<Page>`. The scraper's network is a function of the URL and the
  attempt number.
- A page is its links, its divs (id, classes, text strings, paragraphs) and its body strings.
- The checkpoint file is `StoredFile`.
- Push and save outcomes are per-batch booleans.
- URL decoding is a pair of functions.

Modules:

| module | covers |
|---|---|
| `Wrappers` | `Option` |
| `Text` | Python `strip`, `in`, `"\n".join`, `split("\n")` |
| `Ordering` | string order, `sorted(set)` |
| `Html` | the parsed-page view, `get_text(separator='\n', strip=True)`, `soup.find` |
| `Retry` | `get_with_retries` |
| `CelexPattern` | `CELEX_REGEX.findall` |
| `Checkpoint` | `load_processed_celex`, `save_processed_celex` |
| `Batching` | the work list and its batches |
| `Dataset` | rows and column-wise tables |
| `Scraper` | `scrape_celex_from_url`, `fetch_eurlex_content`, `main` of the scraper |
| `CelexQuery` | `extract_celex_numbers` |
| `CaseResolver` | `fetch_case_content` |
| `CaseSync` | `main` of the updater |

## Model

| member | source | states |
|---|---|---|
| CelexPattern.IsCelexMatches | CJEU_Scraper.py:43-45 | a string is an identifier, `'6'`, four ASCII digits, an upper-case ASCII letter and four ASCII digits, exactly when it is ten characters long and the pattern matches at its start |
| CelexPattern.CelexChars | CJEU_Scraper.py:45 | every identifier has `'6'` first, a letter at position 5, digits elsewhere, and no colon |
| CelexPattern.FindAll | CJEU_Scraper.py:111 | every string `findall` returns is a ten-character identifier |
| CelexPattern.FindAllSpec | CJEU_Scraper.py:111 | `findall` returns substrings of its input; it is empty exactly when the pattern matches nowhere; otherwise it is the leftmost match followed by the matches after it, none overlapping |
| CelexPattern.FindAllOfCelex | CJEU_Scraper.py:111 | an identifier on its own is found exactly once |
| CelexPattern.TwoLetterCodeIsMissed | CJEU_Scraper.py:43-45 | a case-law number with a two-letter court code such as `62019CJ0123` yields no match |
| Retry.GetWithRetries | CJEU_Scraper.py:84-94 | one to three attempts are made; a pause follows every failed attempt but the last; the response is the first success; none is returned exactly when all three attempts fail, and then after exactly three attempts and two pauses |
| Retry.AttemptFrom | CJEU_Scraper.py:84-92 | from attempt `a` on, attempts stop at the first success and never go past the third; pauses number the attempts minus one |
| Retry.AlwaysFailing | CJEU_Scraper.py:84-94 | a URL that always fails is tried three times, with two pauses of five seconds |
| Html.GetText | CJEU_Scraper.py:132-141 | `get_text(separator='\n', strip=True)` is stripped text, empty exactly when every text string is whitespace |
| Html.GetTextShape | CJEU_Scraper.py:132-141 | when no string holds an inner newline, the text has one non-empty line per non-blank string |
| Html.FindDiv | update_cases.py:93-95 | `soup.find` gives the first div in document order that qualifies, and nothing exactly when no div does |
| Checkpoint.Load | CJEU_Scraper.py:50-60 | a missing, unreadable or non-JSON checkpoint loads as the empty set; a JSON array loads as the set of its strings |
| Checkpoint.Save | CJEU_Scraper.py:62-67 | the file written lists every element of the set once, and loading it back gives the same set |
| Checkpoint.Persist | CJEU_Scraper.py:62-70 | a failed write leaves the previous file; a successful one loads back as the saved set |
| Batching.WorkList | CJEU_Scraper.py:197 | the work list is strictly ascending and holds exactly the found identifiers not in the checkpoint, once each |
| Batching.Batches | CJEU_Scraper.py:206-209 | every batch holds 1 to 200 items; there are `ceil(n / 200)` of them |
| Batching.BatchesFlatten | CJEU_Scraper.py:206-209 | the batches concatenated in order give back the work list |
| Batching.BatchIsSlice | CJEU_Scraper.py:206-207 | batch `k` is the slice `work[k*200 : k*200+200]` |
| Batching.TwoFullBatches | CJEU_Scraper.py:206-209 | 400 items make two full batches of 200 |
| Batching.BatchesDisjoint | CJEU_Scraper.py:206-207 | in a list without duplicates, no item lies in two batches |
| Dataset.FromRecords | update_cases.py:129-133 | row `i` of the table built from a list of records is record `i` |
| Dataset.RecordsRoundTrip | update_cases.py:129-133 | turning records into columns and back gives the same records in the same order |
| Dataset.ConcatColumns | update_cases.py:137-141 | concatenating two well-formed tables column by column gives a well-formed table whose rows are the first table's, at the same positions, then the second's |
| Dataset.ConcatColumnsAppendsRows | update_cases.py:137-141 | concatenating two tables column by column appends the second's rows after the first's |
| Scraper.AfterLastColon | CJEU_Scraper.py:246 | `split(':')[-1]` is a colon-free suffix, preceded by a colon unless it is the whole string |
| Scraper.CelexRecoveredFromUrl | CJEU_Scraper.py:246 | with a URL prefix ending in a colon, the key recovered from the record URL is the identifier exactly when the identifier has no colon |
| Scraper.Fetch | CJEU_Scraper.py:100 | the page is absent exactly when all three attempts fail; otherwise it is the answer of the first attempt that succeeded, every earlier attempt having failed |
| Scraper.LinkMatches | CJEU_Scraper.py:108-115 | a link contributes exactly the matches of `findall` over its href (`''` when absent) and over its text, all identifiers |
| Scraper.ScrapeLinks | CJEU_Scraper.py:105-115 | every element is an identifier and every link's matches are included; `Scraper.InScrapeLinks` gives the converse |
| Scraper.ScrapePage | CJEU_Scraper.py:99-118 | a failed fetch yields the empty set; a fetched page yields exactly the identifiers that some link contributes; every element is an identifier |
| Scraper.InScrapeLinks | CJEU_Scraper.py:105-115 | an identifier is found on a page exactly when `findall` yields it from some link's href or text |
| Scraper.Discover | CJEU_Scraper.py:190-191 | every identifier found on the listing pages is well formed; `Scraper.InDiscover` says which are found |
| Scraper.InDiscover | CJEU_Scraper.py:190-191 | an identifier is found exactly when some listing page to scrape yields it |
| Scraper.DiscoverAppend | CJEU_Scraper.py:190-191 | scraping two lists of pages finds the union of what each finds |
| Scraper.UrlsToScrape | CJEU_Scraper.py:175-188 | the dynamic pages always come first; static pages are added exactly when the loaded checkpoint is empty |
| Scraper.DocumentText | CJEU_Scraper.py:120-141 | the text is the stripped, newline-joined text of the first `document1` div, else of the body; there is no text when the fetch failed or the page has neither |
| Scraper.Content | CJEU_Scraper.py:120-141 | a number's content is the document text of the page fetched from its EUR-Lex URL: stripped, and absent when that fetch failed |
| Scraper.RecordOf | CJEU_Scraper.py:217-221 | a record's URL is the EUR-Lex prefix followed by the number, its content is the number's non-empty content, and its source is the configured one |
| Scraper.BatchRecords | CJEU_Scraper.py:213-223 | a batch yields at most one record per identifier, and exactly one per identifier when all have content; with identifiers, every record is well formed; `Scraper.InBatchRecords` says which records are made |
| Scraper.InBatchRecords | CJEU_Scraper.py:213-223 | a record is made exactly when it is the record (EUR-Lex URL, content, source) of some identifier of the batch that has content |
| Scraper.BatchRecordsCount | CJEU_Scraper.py:213-223 | a batch without duplicates yields exactly as many records as it has identifiers with content |
| Scraper.RecordedCelex | CJEU_Scraper.py:246 | the set of keys recovered from a batch's record URLs; `Scraper.InRecordedCelex` characterises it |
| Scraper.InRecordedCelex | CJEU_Scraper.py:246 | a key is recorded exactly when `split(':')[-1]` of some record's URL gives it |
| Scraper.RecordedCelexOfBatch | CJEU_Scraper.py:213-246 | the keys recovered from a batch's record URLs are exactly the batch's identifiers that have content |
| Scraper.PublishedBatches | CJEU_Scraper.py:213-230 | batches without records are dropped; no published batch is empty |
| Scraper.ProcessBatches | CJEU_Scraper.py:206-257 | the loop completes or stops at a failed batch; the checkpoint set grows only by the keys of published batches; the checkpoint file changes only after a publish |
| Scraper.ProcessBatchesSaves | CJEU_Scraper.py:245-248 | when saves succeed, the file after a publish loads back as the checkpoint set |
| Scraper.ProcessBatchesStops | CJEU_Scraper.py:233-255 | a run stops only at a batch with records whose push failed; with every push succeeding it completes |
| Scraper.ProcessBatchesPublishes | CJEU_Scraper.py:206-255 | what is published is the non-empty record lists of the batches before the stopping point, in order |
| Scraper.ProcessBatchesRecords | CJEU_Scraper.py:245-247 | the checkpoint set gains exactly the identifiers with content in the batches before the stopping point |
| Scraper.ProcessWork | CJEU_Scraper.py:196-257 | the run has nothing to do exactly when the work list is empty, and then nothing is published, the checkpoint file is untouched and the set is the loaded one; a failed batch index is a real batch; the set is the loaded one plus the keys of published batches |
| Scraper.WorkIsNew | CJEU_Scraper.py:197 | the work list has no duplicates and holds only unprocessed identifiers |
| Scraper.ProcessWorkFailedNotRecorded | CJEU_Scraper.py:251-255 | after a failed push, no identifier of the failed batch is in the checkpoint set |
| Scraper.RunScraper | CJEU_Scraper.py:145-257 | without authentication, or with nothing to do, nothing is published and the checkpoint is untouched; the checkpoint set is the loaded one plus the keys of published batches; no empty batch is published; the file changes only after a publish |
| Scraper.Found | CJEU_Scraper.py:178-194 | every element is an identifier, and an identifier is found exactly when some listing page of this run yields it |
| Scraper.Work | CJEU_Scraper.py:196-197 | the work list is strictly ascending and holds exactly the found identifiers that are not in the loaded checkpoint |
| Scraper.FoundCovered | CJEU_Scraper.py:190-197 | every found identifier is in the loaded checkpoint or in the work list |
| Scraper.RunNothingToDo | CJEU_Scraper.py:196-202 | the run exits with nothing to do exactly when it is authenticated and every found identifier is already in the checkpoint |
| Scraper.RunSaves | CJEU_Scraper.py:245-248 | when saves succeed, the checkpoint file after any publish loads back as the checkpoint set |
| Scraper.RunStops | CJEU_Scraper.py:233-255 | a failed run stopped at a batch with records whose push failed; with every push succeeding it completes or has nothing to do |
| Scraper.RunPublishesValidRecords | CJEU_Scraper.py:213-221 | every published record has non-empty content, the configured source, and the EUR-Lex URL of an identifier |
| Scraper.RunRecordsContent | CJEU_Scraper.py:245-248 | after a completed run, the checkpoint set holds exactly the loaded identifiers and the work items that had content |
| Scraper.RunFailedBatchNotRecorded | CJEU_Scraper.py:251-255 | after a failed push, no identifier of the failed batch is in the checkpoint set |
| Scraper.RunPublishesEveryBatch | CJEU_Scraper.py:206-248 | when every push succeeds and every item has content, every batch is published whole; 400 items go up as two uploads of 200 |
| Scraper.FoundShrinks | CJEU_Scraper.py:174-188 | with a non-empty checkpoint, the pages scraped find no more than a first run would |
| Scraper.RerunFindsNothingNew | CJEU_Scraper.py:174-202 | after a completed run in which every item had content and saves succeeded, running again on the saved checkpoint finds nothing to do, publishes nothing and leaves the file as it is |
| CelexQuery.RunEnd | update_cases.py:59 | `+` is greedy: the run of identifier characters ends at the end of the string or at a non-identifier character |
| CelexQuery.Search | update_cases.py:59-63 | a result is a non-empty run of identifier characters; `CelexQuery.SearchSpec` pins it to the leftmost match |
| CelexQuery.SearchSpec | update_cases.py:59 | `re.search` fails exactly when the pattern matches nowhere; otherwise it returns the group of the leftmost match |
| CelexQuery.SearchAfterKeyword | update_cases.py:59-61 | the whole run of identifier characters after `CELEX:` is captured, two-letter court codes included |
| CelexQuery.CaseLawNumberFound | update_cases.py:59-61 | `CELEX:62019CJ0123` yields `62019CJ0123` |
| CelexQuery.Candidate | update_cases.py:53-57 | the `uri` parameter takes priority over `CELEX` |
| CelexQuery.LinkCelex | update_cases.py:50-65 | a non-empty candidate that matches gives its first match; otherwise the whole decoded href is searched |
| CelexQuery.LinksCelex | update_cases.py:49-65 | every identifier extracted from the links is a non-empty run of identifier characters; `CelexQuery.InLinksCelex` says which are extracted |
| CelexQuery.InLinksCelex | update_cases.py:49-65 | an identifier is extracted exactly when some link that has an href yields it |
| CelexQuery.ExtractCelexNumbers | update_cases.py:41-67 | a failed listing fetch yields the empty set; a fetched page yields exactly what its links with an href give through `LinkCelex`; every identifier is a non-empty run of identifier characters |
| CaseResolver.FirstDutch | update_cases.py:76-84 | the chosen link is the first whose href contains both `NL/TXT` and `CELEX`; there is none exactly when no link qualifies |
| CaseResolver.Absolutize | update_cases.py:79-82 | an href starting with `//` gets `https:` in front, one starting with a single `/` gets the origin in front, any other is unchanged; the result ends with the href and does not start with `/` |
| CaseResolver.AbsolutizeIdempotent | update_cases.py:79-82 | absolutizing an already absolutized link changes nothing |
| CaseResolver.AbsolutizeKeepsDutch | update_cases.py:78-83 | an absolutized Dutch link still contains both markers |
| CaseResolver.DutchUrl | update_cases.py:73-86 | the URL is the first Dutch link made absolute, or the template applied to the CELEX number when the English page failed or has no such link |
| CaseResolver.DutchUrlIsDutch | update_cases.py:73-86 | with a Dutch template, the resolved URL always contains both markers |
| CaseResolver.EurLexTemplateIsDutch | update_cases.py:18 | the EUR-Lex template contains both markers |
| CaseResolver.ContentContainer | update_cases.py:93-97 | a `tab-content` div is preferred over `Texte-integral`; there is no container exactly when neither exists |
| CaseResolver.ParagraphText | update_cases.py:99 | `p.get_text(strip=True)` is stripped text |
| CaseResolver.ParagraphBlank | update_cases.py:99 | a paragraph's text is empty, so the paragraph is skipped, exactly when each of its strings is whitespace |
| CaseResolver.ContainerText | update_cases.py:98-99 | the text is stripped and empty exactly when every paragraph is blank; when no paragraph holds an inner newline, its lines are the non-blank paragraphs and none is empty |
| CaseResolver.FetchCaseContent | update_cases.py:69-100 | nothing is returned exactly when the Dutch fetch fails or no container exists; otherwise the resolved URL, whose page was fetched, with the joined paragraph text of that page's chosen container |
| CaseSync.ExistingUrls | update_cases.py:34-39 | the existing URLs are the loaded `URL` column, or empty when loading fails |
| CaseSync.Entry | update_cases.py:110-122 | an entry is made exactly when the case resolves, its URL is not among the existing ones and its text is non-empty |
| CaseSync.CollectEntries | update_cases.py:109-122 | every entry collected for a page has a URL not among the existing ones, non-empty content and the configured source |
| CaseSync.InCollectEntries | update_cases.py:109-122 | an entry is collected exactly when some CELEX number of the page yields it |
| CaseSync.DuplicateWithinRun | update_cases.py:109-122 | two different CELEX numbers on one page that resolve to the same new case give two identical entries |
| CaseSync.DuplicateAcrossPages | update_cases.py:107-122 | a CELEX number listed on two listing pages whose case is new gives two identical entries in one run |
| CaseSync.PageCelexes | update_cases.py:108-109 | a page's CELEX numbers are visited in strictly ascending order, and they are exactly the extracted ones |
| CaseSync.PagesEntries | update_cases.py:107-122 | every entry collected across the listing pages has a URL not among the existing ones, non-empty content and the configured source |
| CaseSync.InSomePage | update_cases.py:107-122 | an entry is collected across the listing pages exactly when the inner loop of some page collects it |
| CaseSync.InPagesEntries | update_cases.py:107-122 | an entry is collected exactly when some CELEX number of some listing page yields it |
| CaseSync.NewEntries | update_cases.py:103-122 | no new entry has a URL that was loaded at the start; every new entry has non-empty content and the configured source |
| CaseSync.NewEntriesAreNew | update_cases.py:103-122 | no new entry has the URL of a row loaded at the start; every entry has content and source `CJEU` |
| CaseSync.Merge | update_cases.py:129-143 | the pushed table's rows are the existing rows followed by the new ones, or only the new ones when loading fails |
| CaseSync.Sync | update_cases.py:125-145 | nothing is pushed exactly when there are no new entries; otherwise the pushed table is the existing rows followed by the new entries |
| CaseSync.SyncNeverReaddsExisting | update_cases.py:103-145 | when the dataset is unchanged during the run, the pushed table keeps every existing row in place and adds rows, none with an existing URL |

## Left out

- HTTP, sessions, time-outs and `time.sleep`: fetch outcomes are inputs. The retry loop counts its pauses instead of sleeping. The politeness pauses between pages and documents are not modelled.
- BeautifulSoup: a page is given already parsed. Nested `<p>` elements, whose text BeautifulSoup would visit twice, are not modelled.
- `unquote`, `urlparse` and `parse_qs`: `UrlCodec` takes them as given functions.
- Hugging Face `login`, `load_dataset` and `push_to_hub`: they are given outcomes. The scraper's token check is the `loggedIn` flag. What the hub does with a pushed dataset is not modelled.
- Exceptions from `requests` that the scripts do not catch are not modelled. In the updater a failed GET is a response that is not OK. A push that raises ends the run (`PushFailed`).
- `json.dump` formatting: a checkpoint is an array of strings. JSON values other than an array of strings, and `UnicodeDecodeError`, are not modelled. A write is either complete or does not happen.
- Set iteration order: `list(set)` in `save_processed_celex` and `for celex in celex_ids` visit sets in an order Python does not specify. The model visits them in ascending order. `CaseSync.InCollectEntries` and `Checkpoint.LoadEnumeration` hold for any order.
- `\d` matches only ASCII digits in the model, while Python's `\d` on `str` also matches other Unicode decimal digits. This applies to `CelexPattern.Admits` and `CelexQuery.IsIdChar`.
- Logging and console output. The updater's module-level token check (`HF_TOKEN`) raises before `main` runs and is not modelled.

## Observations

- The scraper's pattern `6\d{4}[A-Z]\d{4}` has one letter where case-law CELEX numbers have a two-letter court code. `CelexPattern.TwoLetterCodeIsMissed` shows that `62019CJ0123` yields nothing. The updater's pattern captures the same number whole (`CelexQuery.CaseLawNumberFound`). The model keeps the scraper's pattern as written.
- The updater checks new URLs only against the URLs loaded at the start. A case listed on two pages is added twice in one run (`CaseSync.DuplicateAcrossPages`), and so is a case that two CELEX numbers resolve to (`CaseSync.DuplicateWithinRun`).
- Text joined from paragraphs has no empty lines only when no paragraph text holds an inner newline. `get_text(strip=True)` strips the ends of each string, not the newlines inside it.
- `fetch_eurlex_content` falls back to the text of `<body>` when the page has no `document1` div (`Scraper.DocumentText`). The updater's `fetch_case_content` has no such fallback: without a `tab-content` or `Texte-integral` div it returns nothing (`CaseResolver.ContentContainer`).
- `save_processed_celex` writes `list(set)`, so the order of the checkpoint array is whatever order Python visits the set in. Only the set of identifiers is meaningful.
- `get_with_retries` does not pause after its last attempt (`Retry.GetWithRetries`).
- Neither script caps the number of documents processed in a run, and neither cuts the text down to a part of the document.
- Neither script keeps URLs unique in the remote table. The updater can add one URL twice in a run (`CaseSync.DuplicateAcrossPages`, `CaseSync.DuplicateWithinRun`). The scraper pushes each batch on its own without reading the existing table.

=== FILE: batching.dfy ===
/**
 * The scraper's work list `sorted(list(all_found - processed))` and its
 * cutting into slices `celex_to_process[i:i + BATCH_SIZE]`.
 */
module Batching {
  import opened Ordering

  /** `BATCH_SIZE`. */
  const BatchSize: nat := 200

  /**
   * The work list: ascending, without duplicates, holding exactly the found
   * identifiers that are not yet in the checkpoint.
   */
  function WorkList(found: set<string>, processed: set<string>): (work: seq<string>)
    ensures StrictlySorted(work)
    ensures forall x :: x in work <==> x in found && x !in processed
    ensures |work| == |found - processed|
  {
    SortedSeq(found - processed)
  }

  /** `min(a, b)`. */
  function Min(a: nat, b: nat): nat {
    if a <= b then a else b
  }

  /** The batches concatenated back together. */
  function Flatten<T>(bs: seq<seq<T>>): seq<T> {
    if |bs| == 0 then [] else bs[0] + Flatten(bs[1..])
  }

  /** An item is in the concatenation exactly when it is in one of the parts. */
  lemma InFlatten<T>(bs: seq<seq<T>>, x: T)
    ensures x in Flatten(bs) <==> exists j :: 0 <= j < |bs| && x in bs[j]
  {
    if |bs| > 0 {
      InFlatten(bs[1..], x);
      assert forall j :: 0 < j < |bs| ==> bs[j] == bs[1..][j - 1];
    }
  }

  /** `ceil(n / BatchSize)`. */
  function BatchCount(n: nat): nat {
    (n + BatchSize - 1) / BatchSize
  }

  /**
   * The slices the batching loop visits, in order: each non-empty and at
   * most `BatchSize` long, `ceil(n / BatchSize)` of them.
   */
  function Batches<T>(work: seq<T>): (bs: seq<seq<T>>)
    ensures forall k :: 0 <= k < |bs| ==> 0 < |bs[k]| <= BatchSize
    ensures |bs| == BatchCount(|work|)
    decreases |work|
  {
    if |work| == 0 then []
    else
      var cut := Min(BatchSize, |work|);
      var rest := Batches(work[cut..]);
      [work[..cut]] + rest
  }

  /** The batches concatenated back together are the work list. */
  lemma {:induction false} BatchesFlatten<T>(work: seq<T>)
    ensures Flatten(Batches(work)) == work
    decreases |work|
  {
    NoWorkNoBatches(work);
    if |work| > 0 {
      var cut := Min(BatchSize, |work|);
      BatchesCons(work);
      BatchesFlatten(work[cut..]);
      assert ([work[..cut]] + Batches(work[cut..]))[1..] == Batches(work[cut..]);
      assert work == work[..cut] + work[cut..];
    }
  }

  /** Batch `k` is the slice `work[k * BatchSize : k * BatchSize + BatchSize]`, clamped as Python clamps it. */
  lemma BatchIsSlice<T>(work: seq<T>, k: nat)
    requires k < |Batches(work)|
    ensures k * BatchSize < |work|
    ensures Batches(work)[k] == work[k * BatchSize .. Min(k * BatchSize + BatchSize, |work|)]
  {
    BatchAt(work, k, k * BatchSize);
  }

  /** Batch `k`, which starts at offset `lo`, is the clamped slice from `lo`. */
  lemma {:induction false} BatchAt<T>(work: seq<T>, k: nat, lo: nat)
    requires k < |Batches(work)| && lo == k * BatchSize
    ensures lo < |work| && Batches(work)[k] == work[lo .. Min(lo + BatchSize, |work|)]
    decreases k
  {
    NoWorkNoBatches(work);
    BatchesCons(work);
    if k > 0 {
      var rest := work[BatchSize..];
      OneBatchEarlier(k);
      BatchAt(rest, k - 1, lo - BatchSize);
      ShiftedSlice(work, lo - BatchSize);
    }
  }

  /** A clamped slice of `work` past its first batch is the clamped slice one batch size further on in `work`. */
  lemma ShiftedSlice<T>(work: seq<T>, a: nat)
    requires BatchSize + a < |work|
    ensures work[BatchSize..][a .. Min(a + BatchSize, |work| - BatchSize)] ==
              work[a + BatchSize .. Min(a + BatchSize + BatchSize, |work|)]
  {
    SliceOfSuffix(work, BatchSize, a, Min(a + BatchSize, |work| - BatchSize));
  }

  /** An empty work list has no batches. */
  lemma NoWorkNoBatches<T>(work: seq<T>)
    ensures |work| == 0 ==> Batches(work) == []
  {
  }

  /** The batch before batch `k` starts one batch size earlier. */
  lemma OneBatchEarlier(k: nat)
    requires k > 0
    ensures (k - 1) * BatchSize == k * BatchSize - BatchSize
  {
  }

  /** The first batch is the first `BatchSize` items, clamped; the rest batch the remainder. */
  lemma BatchesCons<T>(work: seq<T>)
    requires |work| > 0
    ensures Batches(work) == [work[..Min(BatchSize, |work|)]] + Batches(work[Min(BatchSize, |work|)..])
  {
  }

  lemma SliceOfSuffix<T>(s: seq<T>, cut: nat, a: nat, b: nat)
    requires cut <= |s| && a <= b <= |s| - cut
    ensures s[cut..][a..b] == s[cut + a..cut + b]
  {
  }

  /** A work list of exactly two batch sizes is cut into two full batches. */
  lemma TwoFullBatches<T>(work: seq<T>)
    requires |work| == 2 * BatchSize
    ensures |Batches(work)| == 2
    ensures |Batches(work)[0]| == BatchSize && |Batches(work)[1]| == BatchSize
  {
    BatchIsSlice(work, 0);
    BatchIsSlice(work, 1);
  }

  /** Later batches start at least one batch size further on. */
  lemma BatchStartsApart(i: nat, j: nat)
    requires i < j
    ensures i * BatchSize + BatchSize <= j * BatchSize
  {
    assert j * BatchSize == i * BatchSize + (j - i) * BatchSize;
  }

  /** An element of a batch sits at a work-list position inside that batch's slice. */
  lemma InBatch<T>(work: seq<T>, i: nat, x: T) returns (p: nat)
    requires i < |Batches(work)|
    requires x in Batches(work)[i]
    ensures i * BatchSize <= p < i * BatchSize + BatchSize && p < |work| && work[p] == x
  {
    BatchIsSlice(work, i);
    var lo := i * BatchSize;
    var hi := Min(lo + BatchSize, |work|);
    var a :| 0 <= a < hi - lo && work[lo..hi][a] == x;
    p := lo + a;
  }

  /** Batches of a duplicate-free list do not share elements. */
  lemma BatchesDisjoint<T>(work: seq<T>, i: nat, j: nat, x: T)
    requires forall a, b :: 0 <= a < b < |work| ==> work[a] != work[b]
    requires i < |Batches(work)| && j < |Batches(work)| && i != j
    requires x in Batches(work)[i]
    ensures x !in Batches(work)[j]
  {
    var p := InBatch(work, i, x);
    BatchIsSlice(work, j);
    if i < j { BatchStartsApart(i, j); } else { BatchStartsApart(j, i); }
    var bj := Batches(work)[j];
    forall b | 0 <= b < |bj| ensures bj[b] != x {
      assert bj[b] == work[j * BatchSize + b];
    }
  }
}

=== FILE: case_resolver.dfy ===
/**
 * The updater's `fetch_case_content`: find the Dutch version of a case on
 * its English EUR-Lex page (or fall back to the URL template), fetch it,
 * pick the text container, and join its paragraphs.
 */
module CaseResolver {
  import opened Wrappers
  import opened Text
  import opened Html

  /** The EUR-Lex addresses `fetch_case_content` uses, each up to where the CELEX number goes. */
  datatype Sites = Sites(englishPrefix: string, dutchPrefix: string, origin: string)

  /** The English page URL, `EURLEX_TEMPLATE` and the origin prepended to root-relative links. */
  const EurLex: Sites := Sites(
    "https://eur-lex.europa.eu/legal-content/EN/TXT/?uri=CELEX:",
    "https://eur-lex.europa.eu/legal-content/NL/TXT/HTML/?uri=CELEX:",
    "https://eur-lex.europa.eu")

  /** `"NL/TXT" in href and "CELEX" in href`. */
  predicate IsDutchLink(href: string) {
    Contains(href, "NL/TXT") && Contains(href, "CELEX")
  }

  /** A link that `soup.find_all("a", href=True)` visits and that points at a Dutch text. */
  predicate DutchLink(l: Link) {
    l.href.Some? && IsDutchLink(l.href.value)
  }

  /** The position of the first Dutch link from `i` on; the loop `break`s there. */
  function FirstDutchFrom(links: seq<Link>, i: nat): (r: Option<nat>)
    requires i <= |links|
    ensures r.Some? ==> i <= r.value < |links| && DutchLink(links[r.value])
                        && forall j :: i <= j < r.value ==> !DutchLink(links[j])
    ensures r.None? <==> forall j :: i <= j < |links| ==> !DutchLink(links[j])
    decreases |links| - i
  {
    if i == |links| then None
    else if DutchLink(links[i]) then Some(i)
    else FirstDutchFrom(links, i + 1)
  }

  /** The first Dutch link on the page, if any. */
  function FirstDutch(links: seq<Link>): (r: Option<nat>)
    ensures r.Some? ==> r.value < |links| && DutchLink(links[r.value])
                        && forall j :: 0 <= j < r.value ==> !DutchLink(links[j])
    ensures r.None? <==> forall j :: 0 <= j < |links| ==> !DutchLink(links[j])
  {
    FirstDutchFrom(links, 0)
  }

  /** An origin such as `https://eur-lex.europa.eu`: non-empty and not itself root-relative. */
  predicate AbsoluteOrigin(origin: string) {
    |origin| > 0 && origin[0] != '/'
  }

  /**
   * Making a link absolute: `//host/...` gets `https:` in front,
   * `/path` gets the origin in front, anything else stays. The result ends
   * with the original href and never starts with `/`.
   */
  function Absolutize(origin: string, href: string): (r: string)
    requires AbsoluteOrigin(origin)
    ensures |href| <= |r| && r[|r| - |href|..] == href
    ensures !StartsWith(r, "/")
    ensures !StartsWith(href, "/") ==> r == href
    ensures StartsWith(href, "//") ==> r == "https:" + href
    ensures StartsWith(href, "/") && !StartsWith(href, "//") ==> r == origin + href
  {
    if StartsWith(href, "//") then
      var r := "https:" + href;
      assert r[0] == 'h';
      r
    else if StartsWith(href, "/") then
      var r := origin + href;
      assert r[0] == origin[0];
      r
    else href
  }

  /** Making an absolute link absolute again changes nothing. */
  lemma AbsolutizeIdempotent(origin: string, href: string)
    requires AbsoluteOrigin(origin)
    ensures Absolutize(origin, Absolutize(origin, href)) == Absolutize(origin, href)
  {
  }

  /** What follows a prefix still holds both markers of a Dutch link. */
  lemma DutchAfterPrefix(p: string, href: string)
    requires IsDutchLink(href)
    ensures IsDutchLink(p + href)
  {
    ContainsAfterPrefix(p, href, "NL/TXT");
    ContainsAfterPrefix(p, href, "CELEX");
  }

  /** Absolutizing a Dutch link keeps it a Dutch link. */
  lemma AbsolutizeKeepsDutch(origin: string, href: string)
    requires AbsoluteOrigin(origin) && IsDutchLink(href)
    ensures IsDutchLink(Absolutize(origin, href))
  {
    var r := Absolutize(origin, href);
    assert r == r[..|r| - |href|] + href;
    DutchAfterPrefix(r[..|r| - |href|], href);
  }

  /** The URL template, and hence every URL built from it, names a Dutch text. */
  predicate TemplateIsDutch(sites: Sites) {
    IsDutchLink(sites.dutchPrefix)
  }

  /** `EURLEX_TEMPLATE` holds both markers of a Dutch link. */
  lemma EurLexTemplateIsDutch()
    ensures IsDutchLink(EurLex.dutchPrefix)
  {
    var p := EurLex.dutchPrefix;
    var head, tail := "https://eur-lex.europa.eu/legal-content/", "/HTML/?uri=";
    assert p == head + ("NL/TXT" + tail) + ("CELEX" + ":");
    assert OccursAt("NL/TXT" + tail, "NL/TXT", 0);
    ContainsAfterPrefix(head, "NL/TXT" + tail, "NL/TXT");
    ContainsBeforeSuffix(head + ("NL/TXT" + tail), "NL/TXT", "CELEX" + ":");
    assert OccursAt("CELEX" + ":", "CELEX", 0);
    ContainsAfterPrefix(head + ("NL/TXT" + tail), "CELEX" + ":", "CELEX");
  }

  /** Appending to a string keeps what it contains. */
  lemma ContainsBeforeSuffix(s: string, t: string, q: string)
    requires Contains(s, t)
    ensures Contains(s + q, t)
  {
    var i :| OccursAt(s, t, i);
    assert (s + q)[i..i + |t|] == s[i..i + |t|];
    assert OccursAt(s + q, t, i);
  }

  /**
   * `nl_url`: the first Dutch link of the English page, made absolute; the
   * template applied to the CELEX number when the English page failed to load
   * or has no such link.
   */
  function DutchUrl(sites: Sites, celex: string, english: Option<Page>): (url: string)
    requires AbsoluteOrigin(sites.origin)
    ensures english.None? || FirstDutch(english.value.links).None? ==> url == sites.dutchPrefix + celex
    ensures english.Some? && FirstDutch(english.value.links).Some? ==>
              url == Absolutize(sites.origin, english.value.links[FirstDutch(english.value.links).value].href.value)
  {
    match english
    case None => sites.dutchPrefix + celex
    case Some(p) =>
      match FirstDutch(p.links)
      case None => sites.dutchPrefix + celex
      case Some(k) => Absolutize(sites.origin, p.links[k].href.value)
  }

  /** With a Dutch template, the resolved URL always names a Dutch text. */
  lemma DutchUrlIsDutch(sites: Sites, celex: string, english: Option<Page>)
    requires AbsoluteOrigin(sites.origin) && TemplateIsDutch(sites)
    ensures IsDutchLink(DutchUrl(sites, celex, english))
  {
    if english.None? || FirstDutch(english.value.links).None? {
      ContainsBeforeSuffix(sites.dutchPrefix, "NL/TXT", celex);
      ContainsBeforeSuffix(sites.dutchPrefix, "CELEX", celex);
    } else {
      var k := FirstDutch(english.value.links).value;
      AbsolutizeKeepsDutch(sites.origin, english.value.links[k].href.value);
    }
  }

  /** `soup.find("div", {"class": "tab-content"})` looks for this div. */
  predicate IsTabContent(d: Div) {
    "tab-content" in d.classes
  }

  /** `soup.find("div", {"id": "Texte-integral"})` looks for this div. */
  predicate IsTexteIntegral(d: Div) {
    d.id == Some("Texte-integral")
  }

  /**
   * The text container: the first `tab-content` div if there is one, else
   * the first `Texte-integral` div; none when the page has neither.
   */
  function ContentContainer(divs: seq<Div>): (r: Option<Div>)
    ensures (exists k :: 0 <= k < |divs| && IsTabContent(divs[k])) ==>
              r.Some? && IsFirst(divs, IsTabContent, r.value)
    ensures (forall k :: 0 <= k < |divs| ==> !IsTabContent(divs[k])) ==>
              r == FindDiv(divs, IsTexteIntegral)
    ensures r.None? <==> forall k :: 0 <= k < |divs| ==> !IsTabContent(divs[k]) && !IsTexteIntegral(divs[k])
  {
    match FindDiv(divs, IsTabContent)
    case Some(d) => Some(d)
    case None => FindDiv(divs, IsTexteIntegral)
  }

  /** A concatenation of stripped pieces is stripped. */
  lemma {:induction false} ConcatStripped(ps: seq<string>)
    requires forall k :: 0 <= k < |ps| ==> IsStripped(ps[k])
    ensures IsStripped(Concat(ps))
  {
    if |ps| > 0 {
      ConcatStripped(ps[1..]);
      var rest := Concat(ps[1..]);
      var c := ps[0] + rest;
      if |ps[0]| > 0 && |rest| > 0 {
        assert c[0] == ps[0][0] && c[|c| - 1] == rest[|rest| - 1];
      } else if |ps[0]| == 0 {
        assert c == rest;
      } else {
        assert c == ps[0];
      }
    }
  }

  /** `p.get_text(strip=True)`: the paragraph's stripped strings run together. */
  function ParagraphText(strings: seq<string>): (t: string)
    ensures IsStripped(t)
  {
    ConcatStripped(StripAll(strings));
    Concat(StripAll(strings))
  }

  /** A paragraph is blank, and so skipped, exactly when each of its strings is whitespace. */
  lemma ParagraphBlank(strings: seq<string>)
    ensures ParagraphText(strings) == "" <==> forall k :: 0 <= k < |strings| ==> AllSpace(strings[k])
  {
    ConcatEmpty(StripAll(strings));
    forall k | 0 <= k < |strings| ensures Strip(strings[k]) == "" <==> AllSpace(strings[k]) {
      StripEmpty(strings[k]);
    }
  }

  /** The paragraph texts of a container, in document order. */
  function ParagraphTexts(d: Div): (ts: seq<string>)
    ensures |ts| == |d.paragraphs|
    ensures forall k :: 0 <= k < |ts| ==> ts[k] == ParagraphText(d.paragraphs[k]) && IsStripped(ts[k])
  {
    seq(|d.paragraphs|, k requires 0 <= k < |d.paragraphs| => ParagraphText(d.paragraphs[k]))
  }

  /**
   * `"\n".join(p.get_text(strip=True) for p in paragraphs if p.get_text(strip=True))`:
   * stripped text, empty exactly when every paragraph is blank, and, when no
   * paragraph holds an inner newline, one non-empty line per non-blank
   * paragraph.
   */
  function ContainerText(d: Div): (t: string)
    ensures IsStripped(t)
    ensures t == "" <==> forall k :: 0 <= k < |d.paragraphs| ==> ParagraphText(d.paragraphs[k]) == ""
    ensures (forall k :: 0 <= k < |d.paragraphs| ==> '\n' !in ParagraphText(d.paragraphs[k])) && t != "" ==>
              Split(t) == NonEmpty(ParagraphTexts(d)) && forall k :: 0 <= k < |Split(t)| ==> Split(t)[k] != ""
  {
    LinesOfStripped(ParagraphTexts(d));
    Lines(ParagraphTexts(d))
  }

  /** What `fetch_case_content` returns when it does not return `(None, None)`. */
  datatype Case = Case(url: string, text: string)

  /**
   * `fetch_case_content(celex)` with every GET outcome given by `get`
   * (`None` for a response that is not OK): the resolved Dutch URL with the
   * container's text; nothing when the Dutch page fails to load or has no
   * container.
   */
  function FetchCaseContent(sites: Sites, get: string -> Option<Page>, celex: string): (r: Option<Case>)
    requires AbsoluteOrigin(sites.origin)
    ensures var url := DutchUrl(sites, celex, get(sites.englishPrefix + celex));
            r.None? <==> get(url).None? || ContentContainer(get(url).value.divs).None?
    ensures r.Some? ==> r.value.url == DutchUrl(sites, celex, get(sites.englishPrefix + celex))
                        && IsStripped(r.value.text)
    ensures r.Some? && TemplateIsDutch(sites) ==> IsDutchLink(r.value.url)
    ensures r.Some? ==> get(r.value.url).Some? && ContentContainer(get(r.value.url).value.divs).Some?
                        && r.value.text == ContainerText(ContentContainer(get(r.value.url).value.divs).value)
  {
    var url := DutchUrl(sites, celex, get(sites.englishPrefix + celex));
    assert TemplateIsDutch(sites) ==> IsDutchLink(url) by {
      if TemplateIsDutch(sites) {
        DutchUrlIsDutch(sites, celex, get(sites.englishPrefix + celex));
      }
    }
    match get(url)
    case None => None
    case Some(page) =>
      match ContentContainer(page.divs)
      case None => None
      case Some(d) => Some(Case(url, ContainerText(d)))
  }
}

=== FILE: case_sync.dfy ===
/**
 * The updater's `main`: collect CELEX numbers from the CURIA listing pages,
 * resolve each to a Dutch EUR-Lex text, keep those whose URL the dataset did
 * not hold when the run started, and push the existing rows followed by the
 * new ones.
 */
module CaseSync {
  import opened Wrappers
  import opened Html
  import opened Ordering
  import opened Dataset
  import opened CelexQuery
  import opened CaseResolver

  /** The updater's configuration: listing pages, EUR-Lex sites and the `Source` column value. */
  datatype Updater = Updater(curiaUrls: seq<string>, sites: Sites, source: string)

  /** `CURIA_URLS`, the EUR-Lex addresses and `SOURCE`. */
  const Configured: Updater := Updater(
    ["https://curia.europa.eu/en/content/juris/c2_juris.htm",
     "https://curia.europa.eu/en/content/juris/t2_juris.htm",
     "https://curia.europa.eu/en/content/juris/c1_juris.htm",
     "https://curia.europa.eu/en/content/juris/f1_juris.htm"],
    EurLex,
    "CJEU")

  /**
   * What the run cannot compute itself: the dataset as `load_dataset` returns
   * it at the start and again at the merge (`None` when loading raises), the
   * outcome of every GET, the URL decoding, and whether `push_to_hub` succeeds.
   */
  datatype Env = Env(atStart: Option<seq<Record>>, atMerge: Option<seq<Record>>,
                     get: string -> Option<Page>, codec: UrlCodec, pushOk: bool)

  /** The rows of a load, none when it failed. */
  function RowsOf(loaded: Option<seq<Record>>): seq<Record> {
    loaded.GetOr([])
  }

  /** `get_existing_urls()`: the `URL` column as a set, empty when loading fails. */
  function ExistingUrls(loaded: Option<seq<Record>>): (urls: set<string>)
    ensures loaded.None? ==> urls == {}
    ensures forall u :: u in urls <==> exists k :: 0 <= k < |RowsOf(loaded)| && RowsOf(loaded)[k].url == u
  {
    var rows := RowsOf(loaded);
    set k | 0 <= k < |rows| :: rows[k].url
  }

  /**
   * One iteration of the inner loop: the entry for `celex`, made exactly
   * when its case content resolves, its URL is not among the `existing`
   * ones, and its text is non-empty.
   */
  function Entry(cfg: Updater, get: string -> Option<Page>, existing: set<string>, celex: string): (e: Option<Record>)
    requires AbsoluteOrigin(cfg.sites.origin)
    ensures e.Some? ==> e.value.url !in existing && e.value.content != "" && e.value.source == cfg.source
    ensures var c := FetchCaseContent(cfg.sites, get, celex);
            e.Some? <==> c.Some? && c.value.url !in existing && c.value.text != ""
    ensures var c := FetchCaseContent(cfg.sites, get, celex);
            e.Some? ==> e.value.url == c.value.url && e.value.content == c.value.text
  {
    match FetchCaseContent(cfg.sites, get, celex)
    case None => None
    case Some(c) =>
      if c.url in existing || c.text == "" then None
      else Some(Record(c.url, c.text, cfg.source))
  }

  /** The inner loop over the CELEX numbers of one listing page, in the given order. */
  function CollectEntries(cfg: Updater, get: string -> Option<Page>, existing: set<string>, celexes: seq<string>): (es: seq<Record>)
    requires AbsoluteOrigin(cfg.sites.origin)
    ensures forall i :: 0 <= i < |es| ==> es[i].url !in existing && es[i].content != "" && es[i].source == cfg.source
    decreases |celexes|
  {
    if |celexes| == 0 then []
    else
      var rest := CollectEntries(cfg, get, existing, celexes[1..]);
      match Entry(cfg, get, existing, celexes[0])
      case Some(e) =>
        assert forall i :: 0 < i < |rest| + 1 ==> ([e] + rest)[i] == rest[i - 1];
        [e] + rest
      case None => rest
  }

  /** A record is collected exactly when some CELEX number in the list yields it as its entry. */
  lemma {:induction false} InCollectEntries(cfg: Updater, get: string -> Option<Page>, existing: set<string>,
                                            celexes: seq<string>, e: Record)
    requires AbsoluteOrigin(cfg.sites.origin)
    ensures e in CollectEntries(cfg, get, existing, celexes) <==>
              exists k :: 0 <= k < |celexes| && Entry(cfg, get, existing, celexes[k]) == Some(e)
    decreases |celexes|
  {
    if |celexes| > 0 {
      CollectEntriesCons(cfg, get, existing, celexes);
      InCollectEntries(cfg, get, existing, celexes[1..], e);
      assert forall k :: 0 < k < |celexes| ==> celexes[k] == celexes[1..][k - 1];
    }
  }

  /**
   * The URLs seen so far in a run are not added to the set it checks: two
   * different CELEX numbers on one page that resolve to the same new case
   * make two identical entries.
   */
  lemma DuplicateWithinRun(cfg: Updater, get: string -> Option<Page>, existing: set<string>, c1: string, c2: string)
    requires AbsoluteOrigin(cfg.sites.origin)
    requires c1 != c2
    requires Entry(cfg, get, existing, c1).Some? && Entry(cfg, get, existing, c2) == Entry(cfg, get, existing, c1)
    ensures var e := Entry(cfg, get, existing, c1).value;
            CollectEntries(cfg, get, existing, [c1, c2]) == [e, e]
  {
    var e := Entry(cfg, get, existing, c1).value;
    assert [c1, c2][1..] == [c2] && [c2][1..] == [];
    CollectEntriesCons(cfg, get, existing, [c2]);
    CollectEntriesCons(cfg, get, existing, [c1, c2]);
  }

  /** The entries of a list of numbers: the first number's entry, if any, then those of the rest. */
  lemma CollectEntriesCons(cfg: Updater, get: string -> Option<Page>, existing: set<string>, celexes: seq<string>)
    requires AbsoluteOrigin(cfg.sites.origin) && |celexes| > 0
    ensures var head := Entry(cfg, get, existing, celexes[0]);
            CollectEntries(cfg, get, existing, celexes) ==
              (if head.Some? then [head.value] else []) + CollectEntries(cfg, get, existing, celexes[1..])
  {
  }

  /**
   * A CELEX number listed on two listing pages whose case is new yields two
   * entries of the same case in one run.
   */
  lemma DuplicateAcrossPages(cfg: Updater, env: Env, existing: set<string>, u1: string, u2: string, c: string)
    requires AbsoluteOrigin(cfg.sites.origin)
    requires c in ExtractCelexNumbers(env.codec, env.get(u1)) && c in ExtractCelexNumbers(env.codec, env.get(u2))
    requires Entry(cfg, env.get, existing, c).Some?
    ensures var es := PagesEntries(cfg, env, existing, [u1, u2]);
            exists i, j :: 0 <= i < j < |es| && es[i] == es[j] == Entry(cfg, env.get, existing, c).value
  {
    var e := Entry(cfg, env.get, existing, c).value;
    var first := CollectEntries(cfg, env.get, existing, PageCelexes(env, u1));
    var second := CollectEntries(cfg, env.get, existing, PageCelexes(env, u2));
    InCollectedAt(cfg, env.get, existing, PageCelexes(env, u1), c);
    InCollectedAt(cfg, env.get, existing, PageCelexes(env, u2), c);
    var urls := [u1, u2];
    PagesEntriesCons(cfg, env, existing, urls, 0);
    PagesEntriesCons(cfg, env, existing, urls, 1);
    assert urls[0] == u1 && urls[1] == u2;
    assert PagesEntriesFrom(cfg, env, existing, urls, 2) == [];
    assert PagesEntries(cfg, env, existing, urls) == first + (second + []);
    assert second + [] == second;
    TwoPositions(first, second, e);
  }

  /** A listed number whose entry exists has that entry among the collected ones. */
  lemma InCollectedAt(cfg: Updater, get: string -> Option<Page>, existing: set<string>, celexes: seq<string>, c: string)
    requires AbsoluteOrigin(cfg.sites.origin)
    requires c in celexes && Entry(cfg, get, existing, c).Some?
    ensures Entry(cfg, get, existing, c).value in CollectEntries(cfg, get, existing, celexes)
  {
    var k :| 0 <= k < |celexes| && celexes[k] == c;
    InCollectEntries(cfg, get, existing, celexes, Entry(cfg, get, existing, c).value);
  }

  /** `extract_celex_numbers(url)` for one listing page, visited in ascending order. */
  function PageCelexes(env: Env, url: string): (cs: seq<string>)
    ensures StrictlySorted(cs)
    ensures forall x :: x in cs <==> x in ExtractCelexNumbers(env.codec, env.get(url))
  {
    SortedSeq(ExtractCelexNumbers(env.codec, env.get(url)))
  }

  /** The outer loop over the listing pages: the entries in page order. */
  function PagesEntries(cfg: Updater, env: Env, existing: set<string>, urls: seq<string>): (es: seq<Record>)
    requires AbsoluteOrigin(cfg.sites.origin)
    ensures forall i :: 0 <= i < |es| ==> es[i].url !in existing && es[i].content != "" && es[i].source == cfg.source
  {
    PagesEntriesFrom(cfg, env, existing, urls, 0)
  }

  /** The outer loop from listing page `k` on. */
  function PagesEntriesFrom(cfg: Updater, env: Env, existing: set<string>, urls: seq<string>, k: nat): (es: seq<Record>)
    requires AbsoluteOrigin(cfg.sites.origin) && k <= |urls|
    ensures forall i :: 0 <= i < |es| ==> es[i].url !in existing && es[i].content != "" && es[i].source == cfg.source
    decreases |urls| - k
  {
    if k == |urls| then []
    else
      var here := CollectEntries(cfg, env.get, existing, PageCelexes(env, urls[k]));
      var rest := PagesEntriesFrom(cfg, env, existing, urls, k + 1);
      AllNewAppend(here, rest, existing, cfg.source);
      here + rest
  }

  /** A record is among the entries exactly when some CELEX number of some page yields it. */
  lemma InPagesEntries(cfg: Updater, env: Env, existing: set<string>, urls: seq<string>, e: Record)
    requires AbsoluteOrigin(cfg.sites.origin)
    ensures e in PagesEntries(cfg, env, existing, urls) <==>
              exists i, c :: 0 <= i < |urls| && c in ExtractCelexNumbers(env.codec, env.get(urls[i]))
                             && Entry(cfg, env.get, existing, c) == Some(e)
  {
    InSomePage(cfg, env, existing, urls, e);
    forall i | 0 <= i < |urls| {
      InPageEntries(cfg, env, existing, urls[i], e);
    }
  }

  /** A record is among the entries exactly when it is among the entries of some page. */
  lemma InSomePage(cfg: Updater, env: Env, existing: set<string>, urls: seq<string>, e: Record)
    requires AbsoluteOrigin(cfg.sites.origin)
    ensures e in PagesEntries(cfg, env, existing, urls) <==>
              exists i :: 0 <= i < |urls| && e in CollectEntries(cfg, env.get, existing, PageCelexes(env, urls[i]))
  {
    if e in PagesEntries(cfg, env, existing, urls) {
      var i := EntryPage(cfg, env, existing, urls, 0, e);
    }
    if i :| 0 <= i < |urls| && e in CollectEntries(cfg, env.get, existing, PageCelexes(env, urls[i])) {
      PageEntryKept(cfg, env, existing, urls, 0, i, e);
    }
  }

  /** An entry of the loop from page `k` on comes from some page from `k` on. */
  lemma {:induction false} EntryPage(cfg: Updater, env: Env, existing: set<string>, urls: seq<string>, k: nat, e: Record)
    returns (i: nat)
    requires AbsoluteOrigin(cfg.sites.origin) && k <= |urls|
    requires e in PagesEntriesFrom(cfg, env, existing, urls, k)
    ensures k <= i < |urls| && e in CollectEntries(cfg, env.get, existing, PageCelexes(env, urls[i]))
    decreases |urls| - k
  {
    var here := CollectEntries(cfg, env.get, existing, PageCelexes(env, urls[k]));
    var rest := PagesEntriesFrom(cfg, env, existing, urls, k + 1);
    PagesEntriesCons(cfg, env, existing, urls, k);
    assert e in here + rest <==> e in here || e in rest;
    if e in here {
      i := k;
    } else {
      i := EntryPage(cfg, env, existing, urls, k + 1, e);
    }
  }

  /** An entry of page `i` is an entry of the loop from any page `k` up to `i` on. */
  lemma {:induction false} PageEntryKept(cfg: Updater, env: Env, existing: set<string>, urls: seq<string>, k: nat, i: nat, e: Record)
    requires AbsoluteOrigin(cfg.sites.origin) && k <= i < |urls|
    requires e in CollectEntries(cfg, env.get, existing, PageCelexes(env, urls[i]))
    ensures e in PagesEntriesFrom(cfg, env, existing, urls, k)
    decreases i - k
  {
    var here := CollectEntries(cfg, env.get, existing, PageCelexes(env, urls[k]));
    var rest := PagesEntriesFrom(cfg, env, existing, urls, k + 1);
    PagesEntriesCons(cfg, env, existing, urls, k);
    assert e in here + rest <==> e in here || e in rest;
    if k < i {
      PageEntryKept(cfg, env, existing, urls, k + 1, i, e);
    }
  }

  /** A record is among one page's entries exactly when some CELEX number listed there yields it. */
  lemma InPageEntries(cfg: Updater, env: Env, existing: set<string>, url: string, e: Record)
    requires AbsoluteOrigin(cfg.sites.origin)
    ensures e in CollectEntries(cfg, env.get, existing, PageCelexes(env, url)) <==>
              exists c :: c in ExtractCelexNumbers(env.codec, env.get(url)) && Entry(cfg, env.get, existing, c) == Some(e)
  {
    InListedEntries(cfg, env.get, existing, PageCelexes(env, url), ExtractCelexNumbers(env.codec, env.get(url)), e);
  }

  /** Collecting over any ordering of a set of numbers yields exactly the entries of its members. */
  lemma InListedEntries(cfg: Updater, get: string -> Option<Page>, existing: set<string>,
                        celexes: seq<string>, listed: set<string>, e: Record)
    requires AbsoluteOrigin(cfg.sites.origin)
    requires forall x :: x in celexes <==> x in listed
    ensures e in CollectEntries(cfg, get, existing, celexes) <==>
              exists c :: c in listed && Entry(cfg, get, existing, c) == Some(e)
  {
    InCollectEntries(cfg, get, existing, celexes, e);
    if e in CollectEntries(cfg, get, existing, celexes) {
      var k :| 0 <= k < |celexes| && Entry(cfg, get, existing, celexes[k]) == Some(e);
      assert celexes[k] in listed;
    }
    if exists c :: c in listed && Entry(cfg, get, existing, c) == Some(e) {
      var c :| c in listed && Entry(cfg, get, existing, c) == Some(e);
      var k :| 0 <= k < |celexes| && celexes[k] == c;
    }
  }

  /** Entries whose URL is not in `existing`, with content and the given source. */
  predicate AllNew(es: seq<Record>, existing: set<string>, source: string) {
    forall i :: 0 <= i < |es| ==> es[i].url !in existing && es[i].content != "" && es[i].source == source
  }

  /** Appending new entries to new entries gives new entries. */
  lemma AllNewAppend(a: seq<Record>, b: seq<Record>, existing: set<string>, source: string)
    requires AllNew(a, existing, source) && AllNew(b, existing, source)
    ensures AllNew(a + b, existing, source)
  {
    assert forall i :: |a| <= i < |a| + |b| ==> (a + b)[i] == b[i - |a|];
  }

  /** The loop from page `k` on: the entries of page `k`, then those of the pages after it. */
  lemma PagesEntriesCons(cfg: Updater, env: Env, existing: set<string>, urls: seq<string>, k: nat)
    requires AbsoluteOrigin(cfg.sites.origin) && k < |urls|
    ensures PagesEntriesFrom(cfg, env, existing, urls, k) ==
              CollectEntries(cfg, env.get, existing, PageCelexes(env, urls[k])) + PagesEntriesFrom(cfg, env, existing, urls, k + 1)
  {
  }

  /** Two occurrences of `e`, one in each part, are two distinct positions of the concatenation. */
  lemma TwoPositions(a: seq<Record>, b: seq<Record>, e: Record)
    requires e in a && e in b
    ensures exists i, j :: 0 <= i < j < |a + b| && (a + b)[i] == (a + b)[j] == e
  {
    var i :| 0 <= i < |a| && a[i] == e;
    var j :| 0 <= j < |b| && b[j] == e;
    assert (a + b)[i] == e && (a + b)[|a| + j] == e;
  }

  /** `new_entries` at the end of the loops, checked against the URLs loaded at the start. */
  function NewEntries(cfg: Updater, env: Env): (es: seq<Record>)
    requires AbsoluteOrigin(cfg.sites.origin)
    ensures forall i :: 0 <= i < |es| ==>
              es[i].url !in ExistingUrls(env.atStart) && es[i].content != "" && es[i].source == cfg.source
  {
    PagesEntries(cfg, env, ExistingUrls(env.atStart), cfg.curiaUrls)
  }

  /** Entries are made only for content not yet published under the same URL at the start of the run. */
  lemma NewEntriesAreNew(cfg: Updater, env: Env, e: Record)
    requires AbsoluteOrigin(cfg.sites.origin)
    requires e in NewEntries(cfg, env)
    ensures forall k :: 0 <= k < |RowsOf(env.atStart)| ==> RowsOf(env.atStart)[k].url != e.url
    ensures e.content != "" && e.source == cfg.source
  {
    var existing := ExistingUrls(env.atStart);
    InPagesEntries(cfg, env, existing, cfg.curiaUrls, e);
    var i, c :| 0 <= i < |cfg.curiaUrls| && c in ExtractCelexNumbers(env.codec, env.get(cfg.curiaUrls[i]))
                && Entry(cfg, env.get, existing, c) == Some(e);
  }

  /**
   * The table pushed: the existing columns followed by the new ones, column
   * by column, or only the new data when loading the existing dataset fails.
   */
  function Merge(atMerge: Option<seq<Record>>, added: seq<Record>): (t: Table)
    ensures WellFormed(t)
    ensures ToRecords(t) == RowsOf(atMerge) + added
  {
    RecordsRoundTrip(added);
    match atMerge
    case None => FromRecords(added)
    case Some(rows) =>
      RecordsRoundTrip(rows);
      ConcatColumnsAppendsRows(FromRecords(rows), FromRecords(added));
      ConcatColumns(FromRecords(rows), FromRecords(added))
  }

  /** How a run of `main` ends. */
  datatype Outcome =
    | NoNewCases          // nothing new: returns before building a dataset
    | Pushed(table: Table)
    | PushFailed(table: Table)  // `push_to_hub` raised

  /** `main()`. */
  function Sync(cfg: Updater, env: Env): (o: Outcome)
    requires AbsoluteOrigin(cfg.sites.origin)
    ensures o.NoNewCases? <==> |NewEntries(cfg, env)| == 0
    ensures !o.NoNewCases? ==> WellFormed(o.table)
                               && ToRecords(o.table) == RowsOf(env.atMerge) + NewEntries(cfg, env)
    ensures o.Pushed? <==> |NewEntries(cfg, env)| > 0 && env.pushOk
  {
    var added := NewEntries(cfg, env);
    if |added| == 0 then NoNewCases
    else
      var t := Merge(env.atMerge, added);
      if env.pushOk then Pushed(t) else PushFailed(t)
  }

  /** Appending rows none of whose URLs occur before keeps the old rows and adds no old URL. */
  lemma AppendNew(before: seq<Record>, added: seq<Record>)
    requires forall j, k :: 0 <= j < |added| && 0 <= k < |before| ==> added[j].url != before[k].url
    ensures var rows := before + added;
            rows[..|before|] == before
            && forall i, k :: |before| <= i < |rows| && 0 <= k < |before| ==> rows[i].url != before[k].url
  {
    var rows := before + added;
    forall i, k | |before| <= i < |rows| && 0 <= k < |before| ensures rows[i].url != before[k].url {
      assert rows[i] == added[i - |before|];
    }
  }

  /** No new entry shares a URL with a row loaded at the start. */
  lemma NewEntriesAvoidExisting(cfg: Updater, env: Env)
    requires AbsoluteOrigin(cfg.sites.origin)
    ensures var added, before := NewEntries(cfg, env), RowsOf(env.atStart);
            forall j, k :: 0 <= j < |added| && 0 <= k < |before| ==> added[j].url != before[k].url
  {
    var added, before := NewEntries(cfg, env), RowsOf(env.atStart);
    forall j | 0 <= j < |added| ensures forall k :: 0 <= k < |before| ==> added[j].url != before[k].url {
      NewEntriesAreNew(cfg, env, added[j]);
    }
  }

  /**
   * When the dataset is the same at start and at merge, the pushed table
   * keeps every existing row in place and adds at least one row, none with
   * the URL of an existing row.
   */
  lemma SyncNeverReaddsExisting(cfg: Updater, env: Env)
    requires AbsoluteOrigin(cfg.sites.origin)
    requires env.atStart == env.atMerge
    requires Sync(cfg, env).Pushed?
    ensures var rows := ToRecords(Sync(cfg, env).table);
            var before := RowsOf(env.atStart);
            |before| < |rows| && rows[..|before|] == before
            && forall i, k :: |before| <= i < |rows| && 0 <= k < |before| ==> rows[i].url != before[k].url
  {
    NewEntriesAvoidExisting(cfg, env);
    AppendNew(RowsOf(env.atStart), NewEntries(cfg, env));
  }

  /** The configured origin is absolute, so the updater's link resolution applies. */
  lemma ConfiguredIsAbsolute()
    ensures AbsoluteOrigin(Configured.sites.origin)
  {
    assert Configured.sites.origin[0] == 'h';
  }
}

=== FILE: celex_pattern.dfy ===
/**
 * The scraper's identifier pattern `CELEX_REGEX = (6\d{4}[A-Z]\d{4})` and
 * `findall` with it: non-overlapping matches, scanned left to right.
 */
module CelexPattern {
  import opened Text

  /** One atom of a fixed-length pattern. */
  datatype Atom = Exactly(c: char) | Digit | Upper

  /** `\d` (ASCII digits only), `[A-Z]`, or a literal character. */
  predicate Admits(a: Atom, c: char) {
    match a
    case Exactly(x) => c == x
    case Digit => '0' <= c <= '9'
    case Upper => 'A' <= c <= 'Z'
  }

  /** `6\d{4}[A-Z]\d{4}` as a sequence of atoms. */
  const CelexShape: seq<Atom> := [Exactly('6'), Digit, Digit, Digit, Digit, Upper, Digit, Digit, Digit, Digit]

  /** Every match of the pattern is this long. */
  const CelexLength: nat := 10

  /** The atoms `shape` match `s` from position `i` on. */
  predicate FitsAt(s: string, i: nat, shape: seq<Atom>)
    decreases |shape|
  {
    if |shape| == 0 then i <= |s|
    else i < |s| && Admits(shape[0], s[i]) && FitsAt(s, i + 1, shape[1..])
  }

  lemma {:induction false} FitsAtChars(s: string, i: nat, shape: seq<Atom>)
    requires FitsAt(s, i, shape)
    ensures i + |shape| <= |s|
    ensures forall k :: 0 <= k < |shape| ==> Admits(shape[k], s[i + k])
    decreases |shape|
  {
    if |shape| > 0 {
      FitsAtChars(s, i + 1, shape[1..]);
      assert forall k :: 0 < k < |shape| ==> shape[k] == shape[1..][k - 1];
    }
  }

  lemma {:induction false} FitsAtFromChars(s: string, i: nat, shape: seq<Atom>)
    requires i + |shape| <= |s|
    requires forall k :: 0 <= k < |shape| ==> Admits(shape[k], s[i + k])
    ensures FitsAt(s, i, shape)
    decreases |shape|
  {
    if |shape| > 0 {
      assert forall k :: 0 <= k < |shape| - 1 ==> shape[1..][k] == shape[k + 1];
      FitsAtFromChars(s, i + 1, shape[1..]);
    }
  }

  /** A single character the pattern rejects rules out a match. */
  lemma FitsAtFails(s: string, i: nat, shape: seq<Atom>, k: nat)
    requires k < |shape| && i + k < |s| && !Admits(shape[k], s[i + k])
    ensures !FitsAt(s, i, shape)
  {
    if FitsAt(s, i, shape) {
      FitsAtChars(s, i, shape);
    }
  }

  /** The pattern matches `s` at position `i`. */
  predicate MatchesAt(s: string, i: int) {
    0 <= i && i + CelexLength <= |s| && FitsAt(s, i, CelexShape)
  }

  /** `'6'`, four digits, one upper-case letter, four digits, and nothing else. */
  predicate IsCelex(w: string) {
    |w| == CelexLength && forall k :: 0 <= k < CelexLength ==> Admits(CelexShape[k], w[k])
  }

  /** An identifier is a string the pattern matches at its start, all of it. */
  lemma IsCelexMatches(w: string)
    ensures IsCelex(w) <==> |w| == CelexLength && MatchesAt(w, 0)
  {
    if IsCelex(w) {
      FitsAtFromChars(w, 0, CelexShape);
    }
    if |w| == CelexLength && MatchesAt(w, 0) {
      FitsAtChars(w, 0, CelexShape);
    }
  }

  /** A match, cut out of the string it was found in, is an identifier. */
  lemma MatchIsCelex(s: string, i: nat)
    requires MatchesAt(s, i)
    ensures i + CelexLength <= |s| && IsCelex(s[i..i + CelexLength])
  {
    FitsAtChars(s, i, CelexShape);
  }

  /** An identifier is ten characters: '6', four digits, an upper-case letter, four digits; in particular no colon. */
  lemma CelexChars(w: string)
    requires IsCelex(w)
    ensures w[0] == '6' && 'A' <= w[5] <= 'Z'
    ensures forall k :: 1 <= k < CelexLength && k != 5 ==> '0' <= w[k] <= '9'
    ensures ':' !in w
  {
    assert Admits(CelexShape[0], w[0]) && Admits(CelexShape[5], w[5]);
  }

  lemma CelexHasNoColon(w: string)
    requires IsCelex(w)
    ensures ':' !in w
  {
    CelexChars(w);
  }

  /** `findall` from position `i` on; every element is a well-formed identifier. */
  function FindAllFrom(s: string, i: nat): (r: seq<string>)
    requires i <= |s|
    ensures forall k :: 0 <= k < |r| ==> IsCelex(r[k])
    decreases |s| - i
  {
    if i + CelexLength > |s| then []
    else if MatchesAt(s, i) then
      MatchIsCelex(s, i);
      [s[i..i + CelexLength]] + FindAllFrom(s, i + CelexLength)
    else
      FindAllFrom(s, i + 1)
  }

  /** The scan from `i` finds nothing exactly when the pattern matches nowhere from `i` on. */
  lemma {:induction false} FindAllFromNone(s: string, i: nat)
    requires i <= |s|
    ensures FindAllFrom(s, i) == [] <==> forall j :: i <= j ==> !MatchesAt(s, j)
    decreases |s| - i
  {
    if i + CelexLength <= |s| && !MatchesAt(s, i) {
      FindAllFromNone(s, i + 1);
    }
  }

  /**
   * Scanning resumes right after a match: the leftmost match from `i` on is
   * the first element, and the rest is the scan from its end, so matches
   * never overlap.
   */
  lemma {:induction false} FindAllFromLeftmost(s: string, i: nat, j: nat)
    requires i <= j && MatchesAt(s, j)
    requires forall m :: i <= m < j ==> !MatchesAt(s, m)
    ensures FindAllFrom(s, i) == [s[j..j + CelexLength]] + FindAllFrom(s, j + CelexLength)
    decreases j - i
  {
    if i < j {
      FindAllFromLeftmost(s, i + 1, j);
    }
  }

  /** Every element of the scan from `i` is a piece of `s`. */
  lemma {:induction false} FindAllFromContained(s: string, i: nat)
    requires i <= |s|
    ensures forall k :: 0 <= k < |FindAllFrom(s, i)| ==> Contains(s, FindAllFrom(s, i)[k])
    decreases |s| - i
  {
    if i + CelexLength <= |s| {
      if MatchesAt(s, i) {
        FindAllFromContained(s, i + CelexLength);
        assert OccursAt(s, s[i..i + CelexLength], i);
      } else {
        FindAllFromContained(s, i + 1);
      }
    }
  }

  /** `CELEX_REGEX.findall(s)`: every element is a well-formed identifier. */
  function FindAll(s: string): (r: seq<string>)
    ensures forall k :: 0 <= k < |r| ==> IsCelex(r[k])
  {
    FindAllFrom(s, 0)
  }

  /**
   * `findall` returns pieces of `s`, is empty exactly when the pattern
   * matches nowhere, and otherwise starts with the leftmost match followed
   * by the scan from that match's end.
   */
  lemma FindAllSpec(s: string)
    ensures forall k :: 0 <= k < |FindAll(s)| ==> Contains(s, FindAll(s)[k])
    ensures FindAll(s) == [] <==> forall j :: 0 <= j ==> !MatchesAt(s, j)
    ensures forall j :: 0 <= j && MatchesAt(s, j) && (forall m :: 0 <= m < j ==> !MatchesAt(s, m)) ==>
              FindAll(s) == [s[j..j + CelexLength]] + FindAllFrom(s, j + CelexLength)
  {
    FindAllFromContained(s, 0);
    FindAllFromNone(s, 0);
    forall j | 0 <= j && MatchesAt(s, j) && (forall m :: 0 <= m < j ==> !MatchesAt(s, m))
      ensures FindAll(s) == [s[j..j + CelexLength]] + FindAllFrom(s, j + CelexLength)
    {
      FindAllFromLeftmost(s, 0, j);
    }
  }

  /** A string that is one identifier yields exactly that identifier. */
  lemma FindAllOfCelex(w: string)
    requires IsCelex(w)
    ensures FindAll(w) == [w]
  {
    IsCelexMatches(w);
    assert w[0..CelexLength] == w;
    FindAllFromLeftmost(w, 0, 0);
  }

  /**
   * The pattern admits a one-letter court code, whereas case-law CELEX
   * numbers carry two letters: "62019CJ0123" contains no match at all.
   */
  lemma TwoLetterCodeIsMissed()
    ensures FindAll("62019CJ0123") == []
  {
    var s := "62019CJ0123";
    assert |s| == 11 && s[1] == '2' && s[6] == 'J';
    ElevenWithoutMatch(s);
    FindAllFromNone(s, 0);
  }

  /**
   * An eleven-character string with no digit at position 6 and no `'6'` at
   * position 1 holds no match: only positions 0 and 1 leave room for ten
   * characters.
   */
  lemma ElevenWithoutMatch(s: string)
    requires |s| == 11 && s[1] != '6' && !('0' <= s[6] <= '9')
    ensures forall j :: 0 <= j ==> !MatchesAt(s, j)
  {
    forall j | 0 <= j ensures !MatchesAt(s, j) {
      if j == 0 {
        FitsAtFails(s, 0, CelexShape, 6);
      } else if j == 1 {
        FitsAtFails(s, 1, CelexShape, 0);
      }
    }
  }
}

=== FILE: celex_query.dfy ===
/**
 * The updater's identifier extraction: `re.search(r"CELEX[:=]?([\dA-Z]+)", s, re.I)`
 * and `extract_celex_numbers`, which prefers the `uri` query parameter, then
 * `CELEX`, and falls back to searching the whole decoded href.
 */
module CelexQuery {
  import opened Wrappers
  import opened Html

  /**
   * `[\dA-Z]` under `re.I`: ASCII digits, ASCII letters of either case, and
   * the four non-ASCII letters whose simple case mapping is an ASCII letter
   * (dotted capital I, dotless small i, long s, Kelvin sign).
   */
  predicate IsIdChar(c: char) {
    || ('0' <= c <= '9') || ('A' <= c <= 'Z') || ('a' <= c <= 'z')
    || c == '\U{0130}' || c == '\U{0131}' || c == '\U{017F}' || c == '\U{212A}'
  }

  /** A non-empty run of identifier characters: what the capture group `([A-Za-z0-9]+)` matches. */
  predicate IsId(x: string) {
    |x| > 0 && forall k :: 0 <= k < |x| ==> IsIdChar(x[k])
  }

  /** `c` matches the upper-case ASCII letter `upper` under `re.I`. */
  predicate SameLetter(c: char, upper: char)
    requires 'A' <= upper <= 'Z'
  {
    c == upper || c as int == upper as int + 32
  }

  /** The keyword `CELEX`, in any mix of cases, starts at `i`. */
  predicate KeywordAt(s: string, i: nat) {
    i + 5 <= |s| && SameLetter(s[i], 'C') && SameLetter(s[i + 1], 'E') && SameLetter(s[i + 2], 'L')
    && SameLetter(s[i + 3], 'E') && SameLetter(s[i + 4], 'X')
  }

  /** Where the captured group starts: after the optional `:` or `=` when one follows the keyword. */
  function GroupStart(s: string, i: nat): nat
    requires KeywordAt(s, i)
  {
    if i + 5 < |s| && (s[i + 5] == ':' || s[i + 5] == '=') then i + 6 else i + 5
  }

  /**
   * The pattern matches at `i`. When `:` or `=` follows the keyword but no
   * identifier character follows that, dropping the optional separator does
   * not help, since the separator is no identifier character either.
   */
  predicate MatchAt(s: string, i: nat) {
    KeywordAt(s, i) && GroupStart(s, i) < |s| && IsIdChar(s[GroupStart(s, i)])
  }

  /** The end of the run of identifier characters starting at `j`: `+` is greedy. */
  function RunEnd(s: string, j: nat): (e: nat)
    requires j <= |s|
    ensures j <= e <= |s|
    ensures forall k :: j <= k < e ==> IsIdChar(s[k])
    ensures e == |s| || !IsIdChar(s[e])
    decreases |s| - j
  {
    if j < |s| && IsIdChar(s[j]) then RunEnd(s, j + 1) else j
  }

  /** `match.group(1)` for a match at `i`. */
  function Group(s: string, i: nat): (g: string)
    requires MatchAt(s, i)
    ensures IsId(g)
  {
    var e := RunEnd(s, GroupStart(s, i));
    s[GroupStart(s, i)..e]
  }

  /** `re.search` from position `i`: the group of the leftmost match, if any. */
  function SearchFrom(s: string, i: nat): (r: Option<string>)
    requires i <= |s|
    ensures r.Some? ==> IsId(r.value)
    decreases |s| - i
  {
    if i == |s| then None
    else if MatchAt(s, i) then Some(Group(s, i))
    else SearchFrom(s, i + 1)
  }

  /** The search from `i` fails exactly when the pattern matches nowhere from `i` on. */
  lemma {:induction false} SearchFromNone(s: string, i: nat)
    requires i <= |s|
    ensures SearchFrom(s, i).None? <==> forall j :: i <= j ==> !MatchAt(s, j)
    decreases |s| - i
  {
    if i < |s| && !MatchAt(s, i) {
      SearchFromNone(s, i + 1);
    }
  }

  /** The search from `i` returns the group of the leftmost match from `i` on. */
  lemma {:induction false} SearchFromLeftmost(s: string, i: nat, j: nat)
    requires i <= j && MatchAt(s, j)
    requires forall m :: i <= m < j ==> !MatchAt(s, m)
    ensures SearchFrom(s, i) == Some(Group(s, j))
    decreases j - i
  {
    if i < j {
      SearchFromLeftmost(s, i + 1, j);
    }
  }

  /** `re.search(r"CELEX[:=]?([\dA-Z]+)", s, re.I)` followed by `.group(1)`. */
  function Search(s: string): (r: Option<string>)
    ensures r.Some? ==> IsId(r.value)
  {
    SearchFrom(s, 0)
  }

  /**
   * The search fails exactly when the pattern matches nowhere, and otherwise
   * yields the group of the leftmost match: the whole maximal run of
   * identifier characters after the keyword and optional separator.
   */
  lemma SearchSpec(s: string)
    ensures Search(s).None? <==> forall j: nat :: !MatchAt(s, j)
    ensures forall j: nat :: MatchAt(s, j) && (forall m: nat :: m < j ==> !MatchAt(s, m)) ==> Search(s) == Some(Group(s, j))
  {
    SearchFromNone(s, 0);
    forall j: nat | MatchAt(s, j) && (forall m: nat :: m < j ==> !MatchAt(s, m))
      ensures Search(s) == Some(Group(s, j))
    {
      SearchFromLeftmost(s, 0, j);
    }
  }

  /** A run of identifier characters ends where a non-identifier character, or the string, does. */
  lemma {:induction false} RunEndOfRun(s: string, j: nat, e: nat)
    requires j <= e <= |s|
    requires forall k :: j <= k < e ==> IsIdChar(s[k])
    requires e == |s| || !IsIdChar(s[e])
    ensures RunEnd(s, j) == e
    decreases e - j
  {
    if j < e {
      RunEndOfRun(s, j + 1, e);
    }
  }

  /**
   * Text with no `c` or `C` before the keyword yields the identifier run
   * after `CELEX:` in full, two-letter court codes included.
   */
  lemma SearchAfterKeyword(p: string, id: string, q: string)
    requires forall k :: 0 <= k < |p| ==> p[k] != 'C' && p[k] != 'c'
    requires IsId(id)
    requires |q| == 0 || !IsIdChar(q[0])
    ensures Search(p + "CELEX:" + id + q) == Some(id)
  {
    var s := p + "CELEX:" + id + q;
    var i := |p|;
    assert s[i..i + 6] == "CELEX:";
    assert KeywordAt(s, i);
    assert GroupStart(s, i) == i + 6;
    assert s[i + 6] == id[0];
    forall m | 0 <= m < i ensures !MatchAt(s, m) {
      assert s[m] == p[m];
    }
    RunEndOfRun(s, i + 6, i + 6 + |id|);
    assert s[i + 6..i + 6 + |id|] == id;
    SearchFromLeftmost(s, 0, i);
  }

  /** A case-law number with a two-letter court code is extracted whole. */
  lemma CaseLawNumberFound()
    ensures Search("CELEX:62019CJ0123") == Some("62019CJ0123")
  {
    SearchAfterKeyword("", "62019CJ0123", "");
    assert "" + "CELEX:" + "62019CJ0123" + "" == "CELEX:62019CJ0123";
  }

  /**
   * `unquote` and `parse_qs(urlparse(href).query)` are outside the model:
   * `unquote(href)` is the percent-decoded href, and `param(href, name)` the
   * first value of query parameter `name`, `None` when it is absent.
   */
  datatype UrlCodec = UrlCodec(unquote: string -> string, param: (string, string) -> Option<string>)

  /** `qs["uri"][0]` if present, else `qs["CELEX"][0]` if present. */
  function Candidate(codec: UrlCodec, href: string): (c: Option<string>)
    ensures codec.param(href, "uri").Some? ==> c == codec.param(href, "uri")
    ensures codec.param(href, "uri").None? ==> c == codec.param(href, "CELEX")
  {
    match codec.param(href, "uri")
    case Some(v) => Some(v)
    case None => codec.param(href, "CELEX")
  }

  /** The pattern matches somewhere in `s`. */
  ghost predicate Matches(s: string) {
    exists j: nat :: MatchAt(s, j)
  }

  /**
   * The identifier one link contributes: the first match in the preferred
   * query parameter when that is non-empty and matches anywhere, otherwise
   * the first match in the whole decoded href.
   */
  function LinkCelex(codec: UrlCodec, raw: string): (r: Option<string>)
    ensures r.Some? ==> IsId(r.value)
    ensures var cand := Candidate(codec, codec.unquote(raw));
            cand.Some? && cand.value != "" && Matches(cand.value) ==> r == Search(cand.value)
    ensures var cand := Candidate(codec, codec.unquote(raw));
            !(cand.Some? && cand.value != "" && Matches(cand.value)) ==> r == Search(codec.unquote(raw))
  {
    var href := codec.unquote(raw);
    var cand := Candidate(codec, href);
    SearchSpec(cand.GetOr(""));
    if cand.Some? && cand.value != "" && Search(cand.value).Some? then Search(cand.value)
    else Search(href)
  }

  /** The union over the links that carry an href. */
  function LinksCelex(codec: UrlCodec, links: seq<Link>): (r: set<string>)
    ensures forall x :: x in r ==> IsId(x)
  {
    if |links| == 0 then {}
    else
      var rest := LinksCelex(codec, links[1..]);
      match links[0].href
      case None => rest
      case Some(raw) =>
        match LinkCelex(codec, raw)
        case Some(x) => {x} + rest
        case None => rest
  }

  /** An identifier is extracted exactly when some link with an href yields it. */
  lemma {:induction false} InLinksCelex(codec: UrlCodec, links: seq<Link>, x: string)
    ensures x in LinksCelex(codec, links) <==>
              exists k :: 0 <= k < |links| && links[k].href.Some? && LinkCelex(codec, links[k].href.value) == Some(x)
  {
    if |links| > 0 {
      InLinksCelex(codec, links[1..], x);
      assert forall k :: 0 < k < |links| ==> links[k] == links[1..][k - 1];
    }
  }

  /**
   * `extract_celex_numbers(url)` given the fetch outcome: nothing when the
   * response was not OK, otherwise the identifiers the links with an href
   * yield, each a non-empty run of identifier characters.
   */
  function ExtractCelexNumbers(codec: UrlCodec, page: Option<Page>): (r: set<string>)
    ensures page.None? ==> r == {}
    ensures forall x :: x in r ==> IsId(x)
    ensures page.Some? ==>
              forall x :: x in r <==> exists k :: 0 <= k < |page.value.links| && page.value.links[k].href.Some?
                                                  && LinkCelex(codec, page.value.links[k].href.value) == Some(x)
  {
    match page
    case None => {}
    case Some(p) =>
      var r := LinksCelex(codec, p.links);
      forall x ensures x in r <==> exists k :: 0 <= k < |p.links| && p.links[k].href.Some?
                                                && LinkCelex(codec, p.links[k].href.value) == Some(x) {
        InLinksCelex(codec, p.links, x);
      }
      r
  }
}

=== FILE: checkpoint.dfy ===
/**
 * The scraper's checkpoint of processed CELEX numbers
 * (`load_processed_celex` / `save_processed_celex`). The JSON file is
 * abstracted to the four shapes the loader distinguishes.
 */
module Checkpoint {
  import opened Ordering

  /** The checkpoint file as the loader finds it. */
  datatype StoredFile =
    | Missing                          // the path does not exist
    | Unreadable                       // opening or reading raises an I/O error
    | NotJson                          // the content does not decode as JSON
    | StringArray(items: seq<string>)  // a JSON array of strings

  /**
   * `load_processed_celex()`: the set of the array's strings; a missing,
   * unreadable or undecodable file degrades to the empty set instead of
   * raising.
   */
  function Load(f: StoredFile): (s: set<string>)
    ensures f.StringArray? ==> forall x :: x in s <==> x in f.items
    ensures !f.StringArray? ==> s == {}
  {
    match f
    case StringArray(items) => set x | x in items
    case _ => {}
  }

  /** `items` lists the elements of `s`, each once. */
  predicate Enumerates(items: seq<string>, s: set<string>) {
    && (forall x :: x in items ==> x in s)
    && (forall x :: x in s ==> x in items)
    && (forall i, j :: 0 <= i < j < |items| ==> items[i] != items[j])
  }

  /** Loading back an array that lists a set, in any order, gives that set. */
  lemma LoadEnumeration(items: seq<string>, s: set<string>)
    requires Enumerates(items, s)
    ensures Load(StringArray(items)) == s
  {
  }

  /**
   * `save_processed_celex(s)` when the write succeeds: `json.dump(list(s))`.
   * Python's set order is unspecified; the model writes the elements in
   * ascending order. Loading the result gives `s` back.
   */
  function Save(s: set<string>): (f: StoredFile)
    ensures f.StringArray? && Enumerates(f.items, s)
    ensures Load(f) == s
  {
    var items := SortedSeq(s);
    assert forall i, j :: 0 <= i < j < |items| ==> items[i] != items[j] by {
      forall i, j | 0 <= i < j < |items| ensures items[i] != items[j] {
        assert Less(items[i], items[j]);
      }
    }
    LoadEnumeration(items, s);
    StringArray(items)
  }

  /**
   * A save attempt: on success the file holds `s`; a failed save is only
   * reported, so the file stays as it was.
   */
  function Persist(file: StoredFile, s: set<string>, written: bool): (f: StoredFile)
    ensures written ==> Load(f) == s
    ensures !written ==> f == file
  {
    if written then Save(s) else file
  }
}

=== FILE: dataset.dfy ===
/**
 * Records and the three-column table they are published as
 * (`URL`, `Content`, `Source`).
 */
module Dataset {

  /** One published row. */
  datatype Record = Record(url: string, content: string, source: string)

  /** A table stored column by column, as `Dataset.from_dict` builds it. */
  datatype Table = Table(urls: seq<string>, contents: seq<string>, sources: seq<string>)

  /** All three columns have the same length. */
  predicate WellFormed(t: Table) {
    |t.urls| == |t.contents| == |t.sources|
  }

  function Rows(t: Table): nat
    requires WellFormed(t)
  {
    |t.urls|
  }

  /** Row `i` of a table. */
  function Row(t: Table, i: nat): Record
    requires WellFormed(t) && i < Rows(t)
  {
    Record(t.urls[i], t.contents[i], t.sources[i])
  }

  /** The columns of a list of records: row `i` of the table is record `i`. */
  function FromRecords(rs: seq<Record>): (t: Table)
    ensures WellFormed(t) && Rows(t) == |rs|
    ensures forall i :: 0 <= i < |rs| ==> Row(t, i) == rs[i]
  {
    Table(seq(|rs|, i requires 0 <= i < |rs| => rs[i].url),
          seq(|rs|, i requires 0 <= i < |rs| => rs[i].content),
          seq(|rs|, i requires 0 <= i < |rs| => rs[i].source))
  }

  /** The rows of a table, in order. */
  function ToRecords(t: Table): (rs: seq<Record>)
    requires WellFormed(t)
  {
    seq(Rows(t), i requires 0 <= i < Rows(t) => Row(t, i))
  }

  /** Turning records into columns and back loses and invents nothing. */
  lemma RecordsRoundTrip(rs: seq<Record>)
    ensures ToRecords(FromRecords(rs)) == rs
  {
  }

  /** `existing["URL"] + new["URL"]` and likewise for the other two columns. */
  function ConcatColumns(a: Table, b: Table): (t: Table)
    ensures WellFormed(a) && WellFormed(b) ==>
              WellFormed(t) && Rows(t) == Rows(a) + Rows(b)
              && (forall i :: 0 <= i < Rows(a) ==> Row(t, i) == Row(a, i))
              && (forall i :: Rows(a) <= i < Rows(t) ==> Row(t, i) == Row(b, i - Rows(a)))
  {
    Table(a.urls + b.urls, a.contents + b.contents, a.sources + b.sources)
  }

  /**
   * Concatenating column by column is appending rows: the merged table
   * holds the first table's rows followed by the second's.
   */
  lemma ConcatColumnsAppendsRows(a: Table, b: Table)
    requires WellFormed(a) && WellFormed(b)
    ensures WellFormed(ConcatColumns(a, b))
    ensures ToRecords(ConcatColumns(a, b)) == ToRecords(a) + ToRecords(b)
  {
    var c := ConcatColumns(a, b);
    assert forall i :: 0 <= i < Rows(a) ==> Row(c, i) == Row(a, i);
    assert forall i :: Rows(a) <= i < Rows(c) ==> Row(c, i) == Row(b, i - Rows(a));
  }
}

=== FILE: html.dfy ===
/**
 * The parsed-page view the pipeline works on. Fetching and HTML parsing are
 * outside the model: a page is given already split into the elements the
 * code queries, in document order.
 */
module Html {
  import opened Wrappers
  import opened Text

  /** An `<a>` element: its `href` attribute when present, and its `get_text()`. */
  datatype Link = Link(href: Option<string>, text: string)

  /**
   * A `<div>` element: its `id` and `class` attributes, the text strings
   * `get_text` visits inside it, and each `<p>` inside it as the sequence of
   * text strings that paragraph holds.
   */
  datatype Div = Div(id: Option<string>, classes: seq<string>, strings: seq<string>,
                     paragraphs: seq<seq<string>>)

  /** A fetched page: its links, its divs, and the text strings of `<body>` if there is one. */
  datatype Page = Page(links: seq<Link>, divs: seq<Div>, body: Option<seq<string>>)

  /** `s.strip()` applied to every element. */
  function StripAll(xs: seq<string>): (r: seq<string>)
    ensures |r| == |xs|
    ensures forall k :: 0 <= k < |xs| ==> r[k] == Strip(xs[k]) && IsStripped(r[k])
  {
    seq(|xs|, k requires 0 <= k < |xs| => Strip(xs[k]))
  }

  /**
   * BeautifulSoup's `get_text(separator='\n', strip=True)` over the given
   * text strings: stripped text that is empty exactly when every string is
   * whitespace.
   */
  function GetText(strings: seq<string>): (t: string)
    ensures IsStripped(t)
    ensures t == "" <==> forall k :: 0 <= k < |strings| ==> Strip(strings[k]) == ""
  {
    LinesOfStripped(StripAll(strings));
    Lines(StripAll(strings))
  }

  /**
   * When no string holds an inner newline, `get_text(separator='\n', strip=True)`
   * has one non-empty line per non-blank string.
   */
  lemma GetTextShape(strings: seq<string>)
    ensures (forall k :: 0 <= k < |strings| ==> '\n' !in Strip(strings[k])) && GetText(strings) != "" ==>
              Split(GetText(strings)) == NonEmpty(StripAll(strings))
              && forall k :: 0 <= k < |Split(GetText(strings))| ==> Split(GetText(strings))[k] != ""
  {
    var xs := StripAll(strings);
    LinesOfStripped(xs);
    assert GetText(strings) == Lines(xs);
    assert (forall k :: 0 <= k < |strings| ==> '\n' !in Strip(strings[k])) ==> forall k :: 0 <= k < |xs| ==> '\n' !in xs[k];
  }

  /** `d` is the first element of `divs` satisfying `wanted`: what `soup.find` returns. */
  predicate IsFirst(divs: seq<Div>, wanted: Div -> bool, d: Div) {
    exists k :: 0 <= k < |divs| && divs[k] == d && wanted(d)
                && forall j :: 0 <= j < k ==> !wanted(divs[j])
  }

  /** `soup.find("div", ...)`: the first div in document order that qualifies. */
  function FindDiv(divs: seq<Div>, wanted: Div -> bool): (r: Option<Div>)
    ensures r.Some? ==> IsFirst(divs, wanted, r.value)
    ensures r.None? <==> forall k :: 0 <= k < |divs| ==> !wanted(divs[k])
  {
    if |divs| == 0 then None
    else if wanted(divs[0]) then
      assert IsFirst(divs, wanted, divs[0]) by { assert divs[0] == divs[0]; }
      Some(divs[0])
    else
      var r := FindDiv(divs[1..], wanted);
      if r.Some? then
        var k :| 0 <= k < |divs[1..]| && divs[1..][k] == r.value && wanted(r.value)
                 && forall j :: 0 <= j < k ==> !wanted(divs[1..][j]);
        assert forall j :: 0 <= j < k + 1 ==> !wanted(divs[j]) by {
          forall j | 0 <= j < k + 1 ensures !wanted(divs[j]) {
            if j > 0 { assert divs[j] == divs[1..][j - 1]; }
          }
        }
        assert divs[k + 1] == r.value;
        r
      else
        assert forall k :: 0 <= k < |divs| ==> !wanted(divs[k]) by {
          forall k | 0 <= k < |divs| ensures !wanted(divs[k]) {
            if k > 0 { assert divs[k] == divs[1..][k - 1]; }
          }
        }
        r
  }
}

=== FILE: ordering.dfy ===
/**
 * Python's ordering of `str` values (lexicographic by code point, a proper
 * prefix first) and `sorted` applied to a set of strings.
 */
module Ordering {

  /** `a <= b` on Python strings. */
  predicate Le(a: string, b: string)
    decreases |a|
  {
    |a| == 0 || (|b| > 0 && (a[0] < b[0] || (a[0] == b[0] && Le(a[1..], b[1..]))))
  }

  /** `a < b` on Python strings. */
  predicate Less(a: string, b: string) {
    Le(a, b) && a != b
  }

  lemma {:induction false} LeReflexive(a: string)
    ensures Le(a, a)
    decreases |a|
  {
    if |a| > 0 { LeReflexive(a[1..]); }
  }

  lemma {:induction false} LeAntisymmetric(a: string, b: string)
    requires Le(a, b) && Le(b, a)
    ensures a == b
    decreases |a|
  {
    if |a| > 0 {
      LeAntisymmetric(a[1..], b[1..]);
      assert a == [a[0]] + a[1..] && b == [b[0]] + b[1..];
    }
  }

  lemma {:induction false} LeTransitive(a: string, b: string, c: string)
    requires Le(a, b) && Le(b, c)
    ensures Le(a, c)
    decreases |a|
  {
    if |a| > 0 && a[0] == b[0] && b[0] == c[0] {
      LeTransitive(a[1..], b[1..], c[1..]);
    }
  }

  lemma {:induction false} LeTotal(a: string, b: string)
    ensures Le(a, b) || Le(b, a)
    decreases |a|
  {
    if |a| > 0 && |b| > 0 && a[0] == b[0] {
      LeTotal(a[1..], b[1..]);
    }
  }

  /** `m` is a least element of `s`. */
  predicate IsLeast(m: string, s: set<string>) {
    m in s && forall y :: y in s ==> Le(m, y)
  }

  lemma {:induction false} LeastExists(s: set<string>)
    requires s != {}
    ensures exists m :: IsLeast(m, s)
    decreases s
  {
    var x :| x in s;
    if s != {x} {
      LeastExists(s - {x});
      var m :| IsLeast(m, s - {x});
      LeTotal(x, m);
      if Le(x, m) {
        forall y | y in s ensures Le(x, y) {
          if y != x { LeTransitive(x, m, y); } else { LeReflexive(x); }
        }
        assert IsLeast(x, s);
      } else {
        assert IsLeast(m, s);
      }
    } else {
      LeReflexive(x);
      assert IsLeast(x, s);
    }
  }

  /** The least element of a non-empty set, Python's `min`. */
  function Least(s: set<string>): (m: string)
    requires s != {}
    ensures IsLeast(m, s)
  {
    LeastExists(s);
    forall a, b | Le(a, b) && Le(b, a) ensures a == b { LeAntisymmetric(a, b); }
    var m :| IsLeast(m, s); m
  }

  /** Every element strictly precedes every later one: sorted, no duplicates. */
  predicate StrictlySorted(xs: seq<string>) {
    forall i, j {:trigger Less(xs[i], xs[j])} :: 0 <= i < j < |xs| ==> Less(xs[i], xs[j])
  }

  /** Python's `sorted(s)` for a set of strings. */
  function SortedSeq(s: set<string>): (r: seq<string>)
    ensures StrictlySorted(r)
    ensures forall x :: x in r <==> x in s
    ensures |r| == |s|
    decreases s
  {
    if s == {} then []
    else
      var m := Least(s);
      var rest := SortedSeq(s - {m});
      assert forall j :: 0 <= j < |rest| ==> Less(m, rest[j]);
      [m] + rest
  }
}

=== FILE: retry.dfy ===
/**
 * `get_with_retries` of the scraper: up to `RetryAttempts` GET attempts, a
 * fixed pause between consecutive attempts, the first success returned.
 * The network is a parameter: `answer(k)` is what attempt `k` (from 0) gets,
 * `None` standing for any request exception or non-2xx status.
 */
module Retry {
  import opened Wrappers

  /** `RETRY_ATTEMPTS`. */
  const RetryAttempts: nat := 3
  /** `RETRY_DELAY`, in seconds, slept after each failed attempt that is not the last. */
  const RetryDelaySeconds: nat := 5

  /** The response obtained, how many attempts were made and how many pauses were slept. */
  datatype Retried<T> = Retried(response: Option<T>, attempts: nat, sleeps: nat)

  /** The loop from attempt `a` on. */
  function AttemptFrom<T>(answer: nat -> Option<T>, a: nat): (r: Retried<T>)
    requires a < RetryAttempts
    ensures a < r.attempts <= RetryAttempts
    ensures r.sleeps == r.attempts - 1 - a
    ensures forall k :: a <= k < r.attempts - 1 ==> answer(k).None?
    ensures r.response.Some? ==> r.response == answer(r.attempts - 1)
    ensures r.response.None? ==> r.attempts == RetryAttempts && answer(r.attempts - 1).None?
    decreases RetryAttempts - a
  {
    match answer(a)
    case Some(resp) => Retried(Some(resp), a + 1, 0)
    case None =>
      if a < RetryAttempts - 1 then
        var rest := AttemptFrom(answer, a + 1);
        Retried(rest.response, rest.attempts, rest.sleeps + 1)
      else
        Retried(None, a + 1, 0)
  }

  /**
   * `get_with_retries(url)`: at most `RetryAttempts` attempts; the result is
   * the first successful answer, preceded only by failures; one pause between
   * each two consecutive attempts and none after the last; `None` only when
   * every attempt failed.
   */
  function GetWithRetries<T>(answer: nat -> Option<T>): (r: Retried<T>)
    ensures 1 <= r.attempts <= RetryAttempts
    ensures r.sleeps == r.attempts - 1
    ensures forall k :: 0 <= k < r.attempts - 1 ==> answer(k).None?
    ensures r.response.Some? ==> r.response == answer(r.attempts - 1)
    ensures r.response.None? <==> forall k :: 0 <= k < RetryAttempts ==> answer(k).None?
    ensures r.response.None? ==> r.attempts == RetryAttempts
  {
    AttemptFrom(answer, 0)
  }

  /** Seconds spent sleeping between attempts. */
  function SleptSeconds<T>(r: Retried<T>): nat {
    r.sleeps * RetryDelaySeconds
  }

  /** A URL that always fails is tried exactly `RetryAttempts` times with `RetryAttempts - 1` pauses. */
  lemma AlwaysFailing<T>(answer: nat -> Option<T>)
    requires forall k :: answer(k).None?
    ensures GetWithRetries(answer) == Retried(None, RetryAttempts, RetryAttempts - 1)
    ensures SleptSeconds(GetWithRetries(answer)) == (RetryAttempts - 1) * RetryDelaySeconds
  {
  }
}

=== FILE: scraper.dfy ===
/**
 * The scraper pipeline: listing pages are scanned for CELEX numbers with
 * the fixed pattern, the numbers not yet in the checkpoint are sorted,
 * cut into batches, their EUR-Lex texts fetched, every non-empty batch of
 * records published, and the checkpoint extended only after a publish
 * succeeded.
 */
module Scraper {
  import opened Wrappers
  import opened Text
  import opened Html
  import opened Retry
  import opened CelexPattern
  import opened Checkpoint
  import opened Ordering
  import opened Batching
  import opened Dataset

  /**
   * The module constants `main` reads: `STATIC_URLS`, `DYNAMIC_URLS`,
   * `EURLEX_BASE_URL` up to its `{celex}` placeholder, and `SOURCE_NAME`.
   */
  datatype Config = Config(staticUrls: seq<string>, dynamicUrls: seq<string>,
                           eurlexPrefix: string, sourceName: string)

  /** The values the scraper is configured with. */
  const Configured: Config := Config(
    ["https://curia.europa.eu/en/content/juris/c1_juris.htm",
     "https://curia.europa.eu/en/content/juris/f1_juris.htm"],
    ["https://curia.europa.eu/en/content/juris/t2_juris.htm",
     "https://curia.europa.eu/en/content/juris/c2_juris.htm"],
    "https://eur-lex.europa.eu/legal-content/NL/TXT/HTML/?uri=CELEX:",
    "Court of Justice of the European Union")

  /** The URL template ends in a colon right before the placeholder. */
  predicate ColonBeforeCelex(cfg: Config) {
    |cfg.eurlexPrefix| > 0 && cfg.eurlexPrefix[|cfg.eurlexPrefix| - 1] == ':'
  }

  /** The configured EUR-Lex prefix ends in a colon, so `split(':')[-1]` of a record URL is its identifier. */
  lemma ConfiguredColonBeforeCelex()
    ensures ColonBeforeCelex(Configured)
  {
  }

  /** `EURLEX_BASE_URL.format(celex=celex)`. */
  function EurlexUrl(cfg: Config, celex: string): string {
    cfg.eurlexPrefix + celex
  }

  /** `s.split(':')[-1]`: what follows the last colon, or all of `s` when it has none. */
  function AfterLastColon(s: string): (r: string)
    ensures ':' !in r
    ensures |r| <= |s| && forall j :: 0 <= j < |r| ==> r[j] == s[|s| - |r| + j]
    ensures |r| < |s| ==> s[|s| - |r| - 1] == ':'
  {
    if |s| == 0 then ""
    else if s[|s| - 1] == ':' then ""
    else
      var r := AfterLastColon(s[..|s| - 1]) + [s[|s| - 1]];
      assert s[..|s| - 1][|s| - |r|..] + [s[|s| - 1]] == s[|s| - |r|..];
      r
  }

  lemma {:induction false} AfterLastColonOfAppend(p: string, c: string)
    requires |p| > 0 && p[|p| - 1] == ':' && ':' !in c
    ensures AfterLastColon(p + c) == c
    decreases |c|
  {
    if |c| == 0 {
      assert p + c == p;
    } else {
      var s := p + c;
      assert s[..|s| - 1] == p + c[..|c| - 1];
      assert s[|s| - 1] == c[|c| - 1] && c[|c| - 1] != ':';
      assert AfterLastColon(s) == AfterLastColon(s[..|s| - 1]) + [s[|s| - 1]];
      AfterLastColonOfAppend(p, c[..|c| - 1]);
      assert c[..|c| - 1] + [c[|c| - 1]] == c;
    }
  }

  /**
   * The checkpoint key of a record: `URL.split(':')[-1]` gives back the CELEX
   * number the URL was built from exactly when that number has no colon.
   */
  lemma CelexRecoveredFromUrl(cfg: Config, celex: string)
    requires ColonBeforeCelex(cfg)
    ensures AfterLastColon(EurlexUrl(cfg, celex)) == celex <==> ':' !in celex
  {
    if ':' !in celex {
      AfterLastColonOfAppend(cfg.eurlexPrefix, celex);
    }
  }

  // ----- fetching -----

  /** The network: `net(url)(k)` is the response attempt `k` at `url` gets. */
  type Network = string -> nat -> Option<Page>

  /** The page `get_with_retries(url)` returns, if any. */
  function Fetch(net: Network, url: string): (r: Option<Page>)
    ensures r.None? <==> forall k :: 0 <= k < RetryAttempts ==> net(url)(k).None?
    ensures r.Some? ==> exists k :: 0 <= k < RetryAttempts && r == net(url)(k)
                                    && forall j :: 0 <= j < k ==> net(url)(j).None?
  {
    var x := GetWithRetries(net(url));
    assert x.response.Some? ==> x.response == net(url)(x.attempts - 1);
    x.response
  }

  // ----- discovery -----

  /** The identifiers one link contributes: `findall` over its href (`''` when absent) and over its text. */
  function LinkMatches(l: Link): (r: set<string>)
    ensures forall x :: x in r ==> IsCelex(x)
    ensures forall x :: x in r <==> x in FindAll(l.href.GetOr("")) || x in FindAll(l.text)
  {
    var m := FindAll(l.href.GetOr("")) + FindAll(l.text);
    set x | x in m
  }

  /** The union of what the links contribute; every element is a well-formed identifier. */
  function ScrapeLinks(links: seq<Link>): (r: set<string>)
    ensures forall x :: x in r ==> IsCelex(x)
    ensures forall k :: 0 <= k < |links| ==> LinkMatches(links[k]) <= r
  {
    if |links| == 0 then {}
    else
      var r := LinkMatches(links[0]) + ScrapeLinks(links[1..]);
      assert forall k :: 0 < k < |links| ==> links[k] == links[1..][k - 1];
      r
  }

  /** An identifier is scraped from a list of links exactly when some link contributes it. */
  lemma {:induction false} InScrapeLinks(links: seq<Link>, x: string)
    ensures x in ScrapeLinks(links) <==> exists k :: 0 <= k < |links| && x in LinkMatches(links[k])
  {
    if |links| > 0 {
      InScrapeLinks(links[1..], x);
      assert forall k :: 0 < k < |links| ==> links[k] == links[1..][k - 1];
    }
  }

  /**
   * `scrape_celex_from_url` given the fetch outcome: the union of the
   * pattern's matches over every link's href and text, each a well-formed
   * identifier; a failed fetch contributes nothing.
   */
  function ScrapePage(page: Option<Page>): (r: set<string>)
    ensures forall x :: x in r ==> IsCelex(x)
    ensures page.None? ==> r == {}
    ensures page.Some? ==>
              forall x :: x in r <==> exists k :: 0 <= k < |page.value.links| && x in LinkMatches(page.value.links[k])
  {
    match page
    case None => {}
    case Some(p) =>
      forall x ensures x in ScrapeLinks(p.links) <==> exists k :: 0 <= k < |p.links| && x in LinkMatches(p.links[k]) {
        InScrapeLinks(p.links, x);
      }
      ScrapeLinks(p.links)
  }

  /** The union of what every listing page in `urls` yields. */
  function Discover(net: Network, urls: seq<string>): (r: set<string>)
    ensures forall x :: x in r ==> IsCelex(x)
  {
    if |urls| == 0 then {} else ScrapePage(Fetch(net, urls[0])) + Discover(net, urls[1..])
  }

  /** An identifier is discovered exactly when one of the listing pages yields it. */
  lemma {:induction false} InDiscover(net: Network, urls: seq<string>, x: string)
    ensures x in Discover(net, urls) <==> exists k :: 0 <= k < |urls| && x in ScrapePage(Fetch(net, urls[k]))
  {
    if |urls| > 0 {
      InDiscover(net, urls[1..], x);
      assert forall k :: 0 < k < |urls| ==> urls[k] == urls[1..][k - 1];
    }
  }

  /** Scraping two lists of listing pages one after the other finds the union of what each finds. */
  lemma {:induction false} DiscoverAppend(net: Network, a: seq<string>, b: seq<string>)
    ensures Discover(net, a + b) == Discover(net, a) + Discover(net, b)
  {
    if |a| > 0 {
      var first := ScrapePage(Fetch(net, a[0]));
      assert (a + b)[0] == a[0] && (a + b)[1..] == a[1..] + b;
      DiscoverAppend(net, a[1..], b);
      assert Discover(net, a + b) == first + Discover(net, a[1..] + b);
      assert Discover(net, a) == first + Discover(net, a[1..]);
    } else {
      assert a + b == b;
    }
  }

  /** Scraping a leading part of the listing pages finds no more than scraping all of them. */
  lemma DiscoverPrefix(net: Network, urls: seq<string>, n: nat)
    requires n <= |urls|
    ensures Discover(net, urls[..n]) <= Discover(net, urls)
  {
    var front, back := urls[..n], urls[n..];
    assert front + back == urls;
    DiscoverAppend(net, front, back);
    assert Discover(net, urls) == Discover(net, front) + Discover(net, back);
  }

  /** The listing pages of a run: the dynamic ones always, the static ones only on a first run. */
  function UrlsToScrape(cfg: Config, processed: set<string>): (urls: seq<string>)
    ensures |urls| >= |cfg.dynamicUrls| && urls[..|cfg.dynamicUrls|] == cfg.dynamicUrls
    ensures forall u :: u in urls <==> u in cfg.dynamicUrls || (processed == {} && u in cfg.staticUrls)
  {
    if processed == {} then cfg.dynamicUrls + cfg.staticUrls else cfg.dynamicUrls
  }

  // ----- content -----

  /** `soup.find('div', id='document1')` looks for this div. */
  predicate IsDocumentDiv(d: Div) {
    d.id == Some("document1")
  }

  /**
   * `fetch_eurlex_content` given the fetch outcome: the stripped, newline-joined
   * text of the first `document1` div, else of `<body>`; nothing when the
   * fetch failed or the page has neither.
   */
  function DocumentText(page: Option<Page>): (r: Option<string>)
    ensures r.Some? ==> IsStripped(r.value)
    ensures page.None? ==> r.None?
    ensures page.Some? && FindDiv(page.value.divs, IsDocumentDiv).Some? ==>
              r == Some(GetText(FindDiv(page.value.divs, IsDocumentDiv).value.strings))
    ensures page.Some? && FindDiv(page.value.divs, IsDocumentDiv).None? ==>
              r == (if page.value.body.Some? then Some(GetText(page.value.body.value)) else None)
  {
    match page
    case None => None
    case Some(p) =>
      match FindDiv(p.divs, IsDocumentDiv)
      case Some(d) =>
        GetTextShape(d.strings);
        Some(GetText(d.strings))
      case None =>
        match p.body
        case Some(b) =>
          GetTextShape(b);
          Some(GetText(b))
        case None => None
  }

  /**
   * `fetch_eurlex_content(celex)`: the document text of the page fetched from
   * the number's EUR-Lex URL, always stripped, and absent when the page could
   * not be fetched.
   */
  function Content(cfg: Config, net: Network, celex: string): (text: Option<string>)
    ensures text.Some? ==> IsStripped(text.value)
    ensures Fetch(net, EurlexUrl(cfg, celex)).None? ==> text.None?
    ensures text == DocumentText(Fetch(net, EurlexUrl(cfg, celex)))
  {
    DocumentText(Fetch(net, EurlexUrl(cfg, celex)))
  }

  /** What `fetch_eurlex_content` yields for each CELEX number. */
  type Contents = string -> Option<string>

  function ContentOf(cfg: Config, net: Network): Contents {
    (c: string) => Content(cfg, net, c)
  }

  /** `if content:` — text that is present and non-empty. */
  predicate Present(text: Option<string>) {
    text.Some? && text.value != ""
  }

  /** A record whose URL is the EUR-Lex URL of a well-formed CELEX number. */
  predicate WellKeyed(cfg: Config, r: Record) {
    StartsWith(r.url, cfg.eurlexPrefix) && IsCelex(r.url[|cfg.eurlexPrefix|..])
  }

  /** Records as the scraper builds them. */
  predicate ValidRecords(cfg: Config, rs: seq<Record>) {
    forall i :: 0 <= i < |rs| ==> rs[i].content != "" && rs[i].source == cfg.sourceName && WellKeyed(cfg, rs[i])
  }

  predicate AllCelex(ids: seq<string>) {
    forall i :: 0 <= i < |ids| ==> IsCelex(ids[i])
  }

  lemma AppendParts(p: string, c: string)
    ensures StartsWith(p + c, p) && (p + c)[|p|..] == c
  {
    assert (p + c)[..|p|] == p;
  }

  /**
   * The records of one batch: one per CELEX number with non-empty content,
   * in batch order; numbers without content are skipped.
   */
  function BatchRecords(cfg: Config, content: Contents, batch: seq<string>): (rs: seq<Record>)
    ensures |rs| <= |batch|
    ensures (forall c :: c in batch ==> Present(content(c))) ==> |rs| == |batch|
    ensures AllCelex(batch) ==> ValidRecords(cfg, rs)
  {
    if |batch| == 0 then []
    else
      var c := batch[0];
      var rest := BatchRecords(cfg, content, batch[1..]);
      assert AllCelex(batch) ==> AllCelex(batch[1..]);
      assert forall j :: 0 < j < |batch| ==> batch[j] == batch[1..][j - 1];
      if Present(content(c)) then
        AppendParts(cfg.eurlexPrefix, c);
        var rs := [RecordOf(cfg, content, c)] + rest;
        assert forall i :: 0 < i < |rs| ==> rs[i] == rest[i - 1];
        rs
      else rest
  }

  /** The records of a batch: the first number's record, if it has content, then those of the rest. */
  lemma BatchRecordsCons(cfg: Config, content: Contents, batch: seq<string>)
    requires |batch| > 0
    ensures BatchRecords(cfg, content, batch) ==
              (if Present(content(batch[0])) then [RecordOf(cfg, content, batch[0])] else []) +
              BatchRecords(cfg, content, batch[1..])
  {
  }

  /** A record is among a batch's records exactly when it is the record of some number of the batch that has content. */
  lemma {:induction false} InBatchRecords(cfg: Config, content: Contents, batch: seq<string>, r: Record)
    ensures r in BatchRecords(cfg, content, batch) <==>
              exists j :: 0 <= j < |batch| && Present(content(batch[j])) && r == RecordOf(cfg, content, batch[j])
    decreases |batch|
  {
    if |batch| > 0 {
      var tail := batch[1..];
      BatchRecordsCons(cfg, content, batch);
      InBatchRecords(cfg, content, tail, r);
      if r in BatchRecords(cfg, content, tail) {
        var j :| 0 <= j < |tail| && Present(content(tail[j])) && r == RecordOf(cfg, content, tail[j]);
        assert tail[j] == batch[j + 1];
      }
      if j :| 0 < j < |batch| && Present(content(batch[j])) && r == RecordOf(cfg, content, batch[j]) {
        assert tail[j - 1] == batch[j];
      }
    }
  }

  /** The record `main()` builds for a number with content: its EUR-Lex URL, its content and the source. */
  function RecordOf(cfg: Config, content: Contents, c: string): (r: Record)
    requires Present(content(c))
    ensures StartsWith(r.url, cfg.eurlexPrefix) && r.url[|cfg.eurlexPrefix|..] == c
    ensures Some(r.content) == content(c) && r.content != ""
    ensures r.source == cfg.sourceName
  {
    AppendParts(cfg.eurlexPrefix, c);
    Record(EurlexUrl(cfg, c), content(c).value, cfg.sourceName)
  }

  /** A batch without duplicates yields exactly one record per number with content. */
  lemma {:induction false} BatchRecordsCount(cfg: Config, content: Contents, batch: seq<string>)
    requires forall x, y :: 0 <= x < y < |batch| ==> batch[x] != batch[y]
    ensures |BatchRecords(cfg, content, batch)| == |ContentIds(content, batch)|
  {
    if |batch| > 0 {
      BatchRecordsCount(cfg, content, batch[1..]);
      ContentIdsCons(content, batch);
      assert batch[0] !in batch[1..];
      assert batch[0] !in ContentIds(content, batch[1..]);
    }
  }

  /** `{item['URL'].split(':')[-1] for item in batch_data}`. */
  function RecordedCelex(rs: seq<Record>): set<string> {
    if |rs| == 0 then {} else {AfterLastColon(rs[0].url)} + RecordedCelex(rs[1..])
  }

  /** A key is recorded exactly when it is what `split(':')[-1]` recovers from some record's URL. */
  lemma InRecordedCelex(rs: seq<Record>, x: string)
    ensures x in RecordedCelex(rs) <==> exists i :: 0 <= i < |rs| && AfterLastColon(rs[i].url) == x
  {
    if x in RecordedCelex(rs) {
      var i := RecordedAt(rs, x);
    }
    if i :| 0 <= i < |rs| && AfterLastColon(rs[i].url) == x {
      RecordedFrom(rs, i);
    }
  }

  /** A recorded key comes from some record's URL. */
  lemma {:induction false} RecordedAt(rs: seq<Record>, x: string) returns (i: nat)
    requires x in RecordedCelex(rs)
    ensures i < |rs| && AfterLastColon(rs[i].url) == x
  {
    if x == AfterLastColon(rs[0].url) {
      i := 0;
    } else {
      var j := RecordedAt(rs[1..], x);
      i := j + 1;
    }
  }

  /** The key of every record's URL is recorded. */
  lemma {:induction false} RecordedFrom(rs: seq<Record>, i: nat)
    requires i < |rs|
    ensures AfterLastColon(rs[i].url) in RecordedCelex(rs)
  {
    var tail := rs[1..];
    assert RecordedCelex(rs) == {AfterLastColon(rs[0].url)} + RecordedCelex(tail);
    if i > 0 {
      RecordedFrom(tail, i - 1);
      assert tail[i - 1] == rs[i];
    }
  }

  /** The CELEX numbers of `batch` that yield content. */
  function ContentIds(content: Contents, batch: seq<string>): set<string> {
    set c | c in batch && Present(content(c))
  }

  /**
   * The checkpoint keys of a batch's records, recovered with `split(':')[-1]`,
   * are exactly the batch's numbers that yielded content.
   */
  lemma {:induction false} RecordedCelexOfBatch(cfg: Config, content: Contents, batch: seq<string>)
    requires ColonBeforeCelex(cfg)
    requires forall c :: c in batch ==> ':' !in c
    ensures RecordedCelex(BatchRecords(cfg, content, batch)) == ContentIds(content, batch)
  {
    if |batch| > 0 {
      var c := batch[0];
      RecordedCelexOfBatch(cfg, content, batch[1..]);
      ContentIdsCons(content, batch);
      var rest := BatchRecords(cfg, content, batch[1..]);
      if Present(content(c)) {
        CelexRecoveredFromUrl(cfg, c);
        var rs := [RecordOf(cfg, content, c)] + rest;
        assert rs[1..] == rest;
        assert RecordedCelex(rs) == {c} + RecordedCelex(rest);
      }
    }
  }

  /** The numbers with content in a batch: its first number if that has content, and those of the rest. */
  lemma ContentIdsCons(content: Contents, batch: seq<string>)
    requires |batch| > 0
    ensures ContentIds(content, batch) ==
              (if Present(content(batch[0])) then {batch[0]} else {}) + ContentIds(content, batch[1..])
  {
    assert forall x :: x in batch <==> x == batch[0] || x in batch[1..];
  }

  /** The union of the checkpoint keys of a sequence of published batches. */
  function PublishedIds(published: seq<seq<Record>>): set<string> {
    if |published| == 0 then {} else RecordedCelex(published[0]) + PublishedIds(published[1..])
  }

  /** The numbers with content across a sequence of batches. */
  function ContentIdsOf(content: Contents, bs: seq<seq<string>>): (r: set<string>)
    ensures forall x :: x in r <==> Present(content(x)) && exists j :: 0 <= j < |bs| && x in bs[j]
  {
    if |bs| == 0 then {}
    else
      var r := ContentIds(content, bs[0]) + ContentIdsOf(content, bs[1..]);
      assert forall j :: 0 < j < |bs| ==> bs[j] == bs[1..][j - 1];
      r
  }

  /** The records of each batch that yields any, in batch order: what an uninterrupted loop publishes. */
  function PublishedBatches(cfg: Config, content: Contents, bs: seq<seq<string>>): (r: seq<seq<Record>>)
    ensures |r| <= |bs|
    ensures forall j :: 0 <= j < |r| ==> r[j] != []
    ensures (forall j :: 0 <= j < |bs| ==> AllCelex(bs[j])) ==> forall j :: 0 <= j < |r| ==> ValidRecords(cfg, r[j])
  {
    if |bs| == 0 then []
    else
      var records := BatchRecords(cfg, content, bs[0]);
      var rest := PublishedBatches(cfg, content, bs[1..]);
      assert (forall j :: 0 <= j < |bs| ==> AllCelex(bs[j])) ==> forall j :: 0 <= j < |bs| - 1 ==> AllCelex(bs[1..][j]);
      if records == [] then rest else [records] + rest
  }

  /** What an uninterrupted loop publishes: the first batch's records, if any, then those of the rest. */
  lemma PublishedBatchesCons(cfg: Config, content: Contents, bs: seq<seq<string>>)
    requires |bs| > 0
    ensures var records := BatchRecords(cfg, content, bs[0]);
            PublishedBatches(cfg, content, bs) ==
              (if records == [] then [] else [records]) + PublishedBatches(cfg, content, bs[1..])
  {
  }

  /**
   * The checkpoint keys of what an uninterrupted loop publishes are exactly
   * the numbers, across all batches, that yielded content.
   */
  lemma {:induction false} PublishedIdsAreContentIds(cfg: Config, content: Contents, bs: seq<seq<string>>)
    requires ColonBeforeCelex(cfg)
    requires forall j :: 0 <= j < |bs| ==> AllCelex(bs[j])
    ensures PublishedIds(PublishedBatches(cfg, content, bs)) == ContentIdsOf(content, bs)
  {
    if |bs| > 0 {
      PublishedIdsAreContentIds(cfg, content, bs[1..]);
      forall c | c in bs[0] ensures ':' !in c {
        var i :| 0 <= i < |bs[0]| && bs[0][i] == c;
        CelexHasNoColon(bs[0][i]);
      }
      RecordedCelexOfBatch(cfg, content, bs[0]);
      var records := BatchRecords(cfg, content, bs[0]);
      var rest := PublishedBatches(cfg, content, bs[1..]);
      if records != [] {
        assert ([records] + rest)[1..] == rest;
      }
    }
  }

  // ----- the run -----

  /** Everything outside the pipeline's own logic, fixed for one run. */
  datatype Environment = Environment(
    loggedIn: bool,           // a token is set and `login` accepted it
    checkpoint: StoredFile,   // the checkpoint file at start
    net: Network,             // every HTTP response
    pushOk: nat -> bool,      // whether `push_to_hub` succeeds for batch k
    saveOk: nat -> bool)      // whether writing the checkpoint after batch k succeeds

  datatype Status = NotAuthenticated | NothingToDo | Completed | PublishFailed(batch: nat)

  /**
   * The outcome of a run: how it ended, the in-memory checkpoint set, the
   * checkpoint file, and the batches of records published, in order.
   */
  datatype Run = Run(status: Status, processed: set<string>, file: StoredFile, published: seq<seq<Record>>)

  /** All CELEX numbers found on this run's listing pages. */
  function Found(cfg: Config, env: Environment): (r: set<string>)
    ensures forall x :: x in r ==> IsCelex(x)
    ensures forall x :: x in r <==> exists k :: 0 <= k < |UrlsToScrape(cfg, Load(env.checkpoint))| &&
                                                x in ScrapePage(Fetch(env.net, UrlsToScrape(cfg, Load(env.checkpoint))[k]))
  {
    forall x ensures x in Discover(env.net, UrlsToScrape(cfg, Load(env.checkpoint))) <==>
                     exists k :: 0 <= k < |UrlsToScrape(cfg, Load(env.checkpoint))| &&
                                 x in ScrapePage(Fetch(env.net, UrlsToScrape(cfg, Load(env.checkpoint))[k])) {
      InDiscover(env.net, UrlsToScrape(cfg, Load(env.checkpoint)), x);
    }
    Discover(env.net, UrlsToScrape(cfg, Load(env.checkpoint)))
  }

  /** `celex_to_process`. */
  function Work(cfg: Config, env: Environment): (w: seq<string>)
    ensures StrictlySorted(w)
    ensures forall c :: c in w <==> c in Found(cfg, env) && c !in Load(env.checkpoint)
  {
    WorkList(Found(cfg, env), Load(env.checkpoint))
  }

  /** Where batch processing stopped: the failed batch, or past the last one. */
  function StopIndex(r: Run, n: nat): nat {
    if r.status.PublishFailed? then r.status.batch else n
  }

  /**
   * The batch loop from batch `k` on, starting from the checkpoint set
   * `processed` and the checkpoint file `file`. A batch without records is
   * skipped unpublished; a failed push stops the run with the checkpoint as
   * it was; a successful push adds the batch's keys to the checkpoint set,
   * which is then saved. The checkpoint set only ever grows by the keys of
   * published batches, no empty batch is published, and the file is touched
   * only after a publish.
   */
  function ProcessBatches(cfg: Config, env: Environment, content: Contents, batches: seq<seq<string>>, k: nat,
                          processed: set<string>, file: StoredFile): (r: Run)
    requires k <= |batches|
    ensures r.status.Completed? || (r.status.PublishFailed? && k <= r.status.batch < |batches|)
    ensures r.processed == processed + PublishedIds(r.published)
    ensures forall j :: 0 <= j < |r.published| ==> r.published[j] != []
    ensures r.published == [] ==> r.file == file
    decreases |batches| - k
  {
    if k == |batches| then
      Run(Completed, processed, file, [])
    else
      var records := BatchRecords(cfg, content, batches[k]);
      if |records| == 0 then
        ProcessBatches(cfg, env, content, batches, k + 1, processed, file)
      else if !env.pushOk(k) then
        Run(PublishFailed(k), processed, file, [])
      else
        var processed' := processed + RecordedCelex(records);
        var r := ProcessBatches(cfg, env, content, batches, k + 1, processed', Persist(file, processed', env.saveOk(k)));
        PublishedIdsCons(records, r.published);
        r.(published := [records] + r.published)
  }

  /** Publishing one more batch in front adds its keys. */
  lemma PublishedIdsCons(records: seq<Record>, rest: seq<seq<Record>>)
    ensures PublishedIds([records] + rest) == RecordedCelex(records) + PublishedIds(rest)
  {
    assert ([records] + rest)[1..] == rest;
  }

  /**
   * When every checkpoint write succeeds, the file holds the checkpoint set
   * as soon as one batch has been published.
   */
  lemma {:induction false} ProcessBatchesSaves(cfg: Config, env: Environment, content: Contents,
                                               batches: seq<seq<string>>, k: nat,
                                               processed: set<string>, file: StoredFile)
    requires k <= |batches|
    requires forall i :: env.saveOk(i)
    ensures var r := ProcessBatches(cfg, env, content, batches, k, processed, file);
            r.published != [] ==> Load(r.file) == r.processed
    decreases |batches| - k
  {
    if k < |batches| {
      var records := BatchRecords(cfg, content, batches[k]);
      if records == [] {
        ProcessBatchesSaves(cfg, env, content, batches, k + 1, processed, file);
      } else if env.pushOk(k) {
        var processed' := processed + RecordedCelex(records);
        ProcessBatchesSaves(cfg, env, content, batches, k + 1, processed', Persist(file, processed', env.saveOk(k)));
      }
    }
  }

  /**
   * The loop stops early only at a batch that has records and whose push
   * failed; when every push succeeds it runs to completion.
   */
  lemma {:induction false} ProcessBatchesStops(cfg: Config, env: Environment, content: Contents,
                                               batches: seq<seq<string>>, k: nat,
                                               processed: set<string>, file: StoredFile)
    requires k <= |batches|
    ensures var r := ProcessBatches(cfg, env, content, batches, k, processed, file);
            (r.status.PublishFailed? ==>
               !env.pushOk(r.status.batch) && BatchRecords(cfg, content, batches[r.status.batch]) != []) &&
            ((forall i :: env.pushOk(i)) ==> r.status == Completed)
    decreases |batches| - k
  {
    if k < |batches| {
      var records := BatchRecords(cfg, content, batches[k]);
      if records == [] {
        ProcessBatchesStops(cfg, env, content, batches, k + 1, processed, file);
      } else if env.pushOk(k) {
        var processed' := processed + RecordedCelex(records);
        ProcessBatchesStops(cfg, env, content, batches, k + 1, processed', Persist(file, processed', env.saveOk(k)));
      }
    }
  }

  /**
   * What the loop publishes is what an uninterrupted loop would publish for
   * the batches it got through before stopping.
   */
  lemma {:induction false} ProcessBatchesPublishes(cfg: Config, env: Environment, content: Contents,
                                                   batches: seq<seq<string>>, k: nat,
                                                   processed: set<string>, file: StoredFile)
    requires k <= |batches|
    ensures var r := ProcessBatches(cfg, env, content, batches, k, processed, file);
            k <= StopIndex(r, |batches|) <= |batches| &&
            r.published == PublishedBatches(cfg, content, batches[k..StopIndex(r, |batches|)])
    decreases |batches| - k
  {
    var r := ProcessBatches(cfg, env, content, batches, k, processed, file);
    var stop := StopIndex(r, |batches|);
    if k == |batches| {
      assert batches[k..stop] == [];
    } else {
      var records := BatchRecords(cfg, content, batches[k]);
      if records == [] || env.pushOk(k) {
        var processed' := if records == [] then processed else processed + RecordedCelex(records);
        var file' := if records == [] then file else Persist(file, processed', env.saveOk(k));
        var r' := ProcessBatches(cfg, env, content, batches, k + 1, processed', file');
        ProcessBatchesPublishes(cfg, env, content, batches, k + 1, processed', file');
        assert r.status == r'.status && r.published == (if records == [] then [] else [records]) + r'.published;
        assert batches[k..stop][0] == batches[k] && batches[k..stop][1..] == batches[k + 1..stop];
        PublishedBatchesCons(cfg, content, batches[k..stop]);
      } else {
        assert batches[k..stop] == [];
      }
    }
  }

  /** The batch loop over identifiers publishes only records as the scraper builds them. */
  lemma ProcessBatchesValid(cfg: Config, env: Environment, content: Contents,
                            batches: seq<seq<string>>, k: nat,
                            processed: set<string>, file: StoredFile)
    requires k <= |batches|
    requires forall j :: k <= j < |batches| ==> AllCelex(batches[j])
    ensures var r := ProcessBatches(cfg, env, content, batches, k, processed, file);
            forall j :: 0 <= j < |r.published| ==> ValidRecords(cfg, r.published[j])
  {
    ProcessBatchesPublishes(cfg, env, content, batches, k, processed, file);
    var r := ProcessBatches(cfg, env, content, batches, k, processed, file);
    var done := batches[k..StopIndex(r, |batches|)];
    assert forall j :: 0 <= j < |done| ==> done[j] == batches[k + j];
  }

  /**
   * With identifiers free of colons, the checkpoint set grows by exactly the
   * numbers with content in the batches the loop got through.
   */
  lemma ProcessBatchesRecords(cfg: Config, env: Environment, content: Contents,
                              batches: seq<seq<string>>, k: nat,
                              processed: set<string>, file: StoredFile)
    requires k <= |batches|
    requires ColonBeforeCelex(cfg)
    requires forall j :: k <= j < |batches| ==> AllCelex(batches[j])
    ensures var r := ProcessBatches(cfg, env, content, batches, k, processed, file);
            r.processed == processed + ContentIdsOf(content, batches[k..StopIndex(r, |batches|)])
  {
    ProcessBatchesPublishes(cfg, env, content, batches, k, processed, file);
    var r := ProcessBatches(cfg, env, content, batches, k, processed, file);
    var done := batches[k..StopIndex(r, |batches|)];
    assert forall j :: 0 <= j < |done| ==> done[j] == batches[k + j];
    PublishedIdsAreContentIds(cfg, content, done);
  }

  /** The records of batches in which every number has content are the batches' full size. */
  lemma {:induction false} PublishedBatchesAllPresent(cfg: Config, content: Contents, bs: seq<seq<string>>)
    requires forall j :: 0 <= j < |bs| ==> |bs[j]| > 0
    requires forall j, c :: 0 <= j < |bs| && c in bs[j] ==> Present(content(c))
    ensures |PublishedBatches(cfg, content, bs)| == |bs|
    ensures forall j :: 0 <= j < |bs| ==> |PublishedBatches(cfg, content, bs)[j]| == |bs[j]|
  {
    if |bs| > 0 {
      PublishedBatchesAllPresent(cfg, content, bs[1..]);
      var records := BatchRecords(cfg, content, bs[0]);
      var rest := PublishedBatches(cfg, content, bs[1..]);
      assert |records| == |bs[0]|;
      assert forall j :: 0 < j < |bs| ==> ([records] + rest)[j] == rest[j - 1] && bs[j] == bs[1..][j - 1];
    }
  }

  /**
   * Steps 4 and 5 of `main()` once the work list is known: nothing to do
   * for an empty list, otherwise the batch loop over its batches from the
   * loaded checkpoint.
   */
  function ProcessWork(cfg: Config, env: Environment, work: seq<string>): (r: Run)
    ensures r.status == NothingToDo <==> |work| == 0
    ensures r.status.Completed? || r.status.NothingToDo? || (r.status.PublishFailed? && r.status.batch < |Batches(work)|)
    ensures r.processed == Load(env.checkpoint) + PublishedIds(r.published)
    ensures forall j :: 0 <= j < |r.published| ==> r.published[j] != []
    ensures r.published == [] ==> r.file == env.checkpoint
    ensures r.status.NothingToDo? ==>
              r.published == [] && r.file == env.checkpoint && r.processed == Load(env.checkpoint)
  {
    if |work| == 0 then
      Run(NothingToDo, Load(env.checkpoint), env.checkpoint, [])
    else
      ProcessBatches(cfg, env, ContentOf(cfg, env.net), Batches(work), 0, Load(env.checkpoint), env.checkpoint)
  }

  /** The work list holds distinct identifiers, none of them in the checkpoint. */
  predicate NewWork(env: Environment, work: seq<string>) {
    && (forall x, y :: 0 <= x < y < |work| ==> work[x] != work[y])
    && (forall i :: 0 <= i < |work| ==> IsCelex(work[i]) && work[i] !in Load(env.checkpoint))
  }

  /** The scraper's work list is new work: sorted without duplicates, scraped identifiers, not yet processed. */
  lemma WorkIsNew(cfg: Config, env: Environment)
    ensures NewWork(env, Work(cfg, env))
  {
    var work := Work(cfg, env);
    forall x, y | 0 <= x < y < |work| ensures work[x] != work[y] {
      assert Less(work[x], work[y]);
    }
    forall i | 0 <= i < |work| ensures IsCelex(work[i]) && work[i] !in Load(env.checkpoint) {
      assert work[i] in work;
    }
  }

  /** Every batch of a list of identifiers holds identifiers only. */
  lemma BatchesAreCelex(work: seq<string>)
    requires AllCelex(work)
    ensures forall j :: 0 <= j < |Batches(work)| ==> AllCelex(Batches(work)[j])
  {
    var bs := Batches(work);
    BatchesFlatten(work);
    forall j, i | 0 <= j < |bs| && 0 <= i < |bs[j]| ensures IsCelex(bs[j][i]) {
      InFlatten(bs, bs[j][i]);
    }
  }

  /** With every checkpoint write succeeding, the file holds the checkpoint set once a batch is published. */
  lemma ProcessWorkSaves(cfg: Config, env: Environment, work: seq<string>)
    requires forall i :: env.saveOk(i)
    ensures var r := ProcessWork(cfg, env, work);
            r.published != [] ==> Load(r.file) == r.processed
  {
    if |work| != 0 {
      ProcessBatchesSaves(cfg, env, ContentOf(cfg, env.net), Batches(work), 0, Load(env.checkpoint), env.checkpoint);
    }
  }

  /** The work stops early only at a batch with records whose push failed; with every push succeeding it completes. */
  lemma ProcessWorkStops(cfg: Config, env: Environment, work: seq<string>)
    ensures var r := ProcessWork(cfg, env, work);
            (r.status.PublishFailed? ==>
               !env.pushOk(r.status.batch) &&
               BatchRecords(cfg, ContentOf(cfg, env.net), Batches(work)[r.status.batch]) != []) &&
            ((forall i :: env.pushOk(i)) ==> r.status in {Completed, NothingToDo})
  {
    if |work| != 0 {
      ProcessBatchesStops(cfg, env, ContentOf(cfg, env.net), Batches(work), 0, Load(env.checkpoint), env.checkpoint);
    }
  }

  /** Processing identifiers publishes only records as the scraper builds them. */
  lemma ProcessWorkValid(cfg: Config, env: Environment, work: seq<string>)
    requires AllCelex(work)
    ensures var r := ProcessWork(cfg, env, work);
            forall j :: 0 <= j < |r.published| ==> ValidRecords(cfg, r.published[j])
  {
    if |work| != 0 {
      BatchesAreCelex(work);
      ProcessBatchesValid(cfg, env, ContentOf(cfg, env.net), Batches(work), 0, Load(env.checkpoint), env.checkpoint);
      assert ProcessWork(cfg, env, work) ==
             ProcessBatches(cfg, env, ContentOf(cfg, env.net), Batches(work), 0, Load(env.checkpoint), env.checkpoint);
    }
  }

  /** Completed work adds to the checkpoint exactly the numbers of the work list that had content. */
  lemma ProcessWorkRecordsContent(cfg: Config, env: Environment, work: seq<string>)
    requires ColonBeforeCelex(cfg) && AllCelex(work)
    ensures var r := ProcessWork(cfg, env, work);
            r.status == Completed ==>
              forall c :: c in r.processed <==>
                c in Load(env.checkpoint) || (c in work && Present(Content(cfg, env.net, c)))
  {
    if |work| != 0 {
      var bs := Batches(work);
      var content := ContentOf(cfg, env.net);
      BatchesAreCelex(work);
      ProcessBatchesRecords(cfg, env, content, bs, 0, Load(env.checkpoint), env.checkpoint);
      if ProcessWork(cfg, env, work).status == Completed {
        assert bs[0..|bs|] == bs;
        BatchesFlatten(work);
        forall c ensures c in ContentIdsOf(content, bs) <==> c in work && Present(Content(cfg, env.net, c)) {
          InFlatten(bs, c);
        }
      }
    }
  }

  /** A number of a later batch of new work is in none of the batches before it, and not in the checkpoint. */
  lemma NotBeforeItsBatch(env: Environment, work: seq<string>, b: nat, c: string)
    requires NewWork(env, work)
    requires b < |Batches(work)| && c in Batches(work)[b]
    ensures c !in Load(env.checkpoint)
    ensures forall j :: 0 <= j < b ==> c !in Batches(work)[j]
  {
    BatchesFlatten(work);
    InFlatten(Batches(work), c);
    forall j | 0 <= j < b ensures c !in Batches(work)[j] {
      BatchesDisjoint(work, b, j, c);
    }
  }

  /** A number of a batch of new work is neither loaded nor among the numbers with content before its batch. */
  lemma NotInEarlierBatches(env: Environment, content: Contents, work: seq<string>, b: nat, c: string)
    requires NewWork(env, work)
    requires b < |Batches(work)| && c in Batches(work)[b]
    ensures c !in Load(env.checkpoint) + ContentIdsOf(content, Batches(work)[0..b])
  {
    NotBeforeItsBatch(env, work, b, c);
    assert forall j :: 0 <= j < b ==> Batches(work)[0..b][j] == Batches(work)[j];
  }

  /** The batch whose push failed leaves no trace in the checkpoint set. */
  lemma ProcessWorkFailedNotRecorded(cfg: Config, env: Environment, work: seq<string>)
    requires ColonBeforeCelex(cfg) && NewWork(env, work)
    ensures var r := ProcessWork(cfg, env, work);
            r.status.PublishFailed? ==> forall c :: c in Batches(work)[r.status.batch] ==> c !in r.processed
  {
    var r := ProcessWork(cfg, env, work);
    if r.status.PublishFailed? {
      var b := r.status.batch;
      var bs := Batches(work);
      var content := ContentOf(cfg, env.net);
      assert AllCelex(work);
      BatchesAreCelex(work);
      ProcessBatchesRecords(cfg, env, content, bs, 0, Load(env.checkpoint), env.checkpoint);
      assert r.processed == Load(env.checkpoint) + ContentIdsOf(content, bs[0..b]);
      forall c | c in bs[b] ensures c !in r.processed {
        NotInEarlierBatches(env, content, work, b, c);
      }
    }
  }

  /** With every push succeeding and every number having content, each batch is published whole. */
  lemma ProcessWorkEveryBatch(cfg: Config, env: Environment, work: seq<string>)
    requires (forall i :: env.pushOk(i)) && |work| != 0
    requires forall c :: c in work ==> Present(Content(cfg, env.net, c))
    ensures var r := ProcessWork(cfg, env, work);
            |r.published| == |Batches(work)| &&
            forall j :: 0 <= j < |r.published| ==> |r.published[j]| == |Batches(work)[j]|
  {
    var bs := Batches(work);
    var content := ContentOf(cfg, env.net);
    ProcessWorkStops(cfg, env, work);
    ProcessBatchesPublishes(cfg, env, content, bs, 0, Load(env.checkpoint), env.checkpoint);
    assert bs[0..|bs|] == bs;
    BatchesFlatten(work);
    forall j, c | 0 <= j < |bs| && c in bs[j] ensures Present(content(c)) {
      InFlatten(bs, c);
    }
    PublishedBatchesAllPresent(cfg, content, bs);
  }

  /**
   * `main()` of the scraper: authenticate, load the checkpoint, scrape the
   * listing pages, diff against the checkpoint, and process the batches.
   * An unauthenticated run touches nothing; the checkpoint set only grows by
   * the keys of what was published, and no empty batch is published.
   */
  function RunScraper(cfg: Config, env: Environment): (r: Run)
    ensures !env.loggedIn ==> r.status == NotAuthenticated && r.published == [] && r.file == env.checkpoint
    ensures r.status.PublishFailed? ==> r.status.batch < |Batches(Work(cfg, env))|
    ensures r.processed == Load(env.checkpoint) + PublishedIds(r.published)
    ensures forall j :: 0 <= j < |r.published| ==> r.published[j] != []
    ensures r.published == [] ==> r.file == env.checkpoint
    ensures r.status.NothingToDo? ==>
              r.published == [] && r.file == env.checkpoint && r.processed == Load(env.checkpoint)
  {
    if !env.loggedIn then
      Run(NotAuthenticated, Load(env.checkpoint), env.checkpoint, [])
    else
      ProcessWork(cfg, env, Work(cfg, env))
  }

  /** A run has nothing to do exactly when it is logged in and every number found is already in the checkpoint. */
  lemma RunNothingToDo(cfg: Config, env: Environment)
    ensures RunScraper(cfg, env).status == NothingToDo <==> env.loggedIn && Found(cfg, env) <= Load(env.checkpoint)
  {
    var found := Found(cfg, env);
    var processed := Load(env.checkpoint);
    assert |Work(cfg, env)| == |found - processed|;
    assert found <= processed <==> found - processed == {};
  }

  /** When every checkpoint write succeeds and something was published, the file holds the checkpoint set. */
  lemma RunSaves(cfg: Config, env: Environment)
    requires forall i :: env.saveOk(i)
    ensures var r := RunScraper(cfg, env);
            r.published != [] ==> Load(r.file) == r.processed
  {
    ProcessWorkSaves(cfg, env, Work(cfg, env));
  }

  /**
   * A run stops early only at a batch that had records and whose push
   * failed; a logged-in run whose pushes all succeed finishes.
   */
  lemma RunStops(cfg: Config, env: Environment)
    ensures var r := RunScraper(cfg, env);
            (r.status.PublishFailed? ==>
               !env.pushOk(r.status.batch) &&
               BatchRecords(cfg, ContentOf(cfg, env.net), Batches(Work(cfg, env))[r.status.batch]) != []) &&
            (env.loggedIn && (forall i :: env.pushOk(i)) ==> r.status in {Completed, NothingToDo})
  {
    ProcessWorkStops(cfg, env, Work(cfg, env));
  }

  /** Every published record has content, the configured source, and the EUR-Lex URL of a well-formed CELEX number. */
  lemma RunPublishesValidRecords(cfg: Config, env: Environment)
    ensures var r := RunScraper(cfg, env);
            forall j :: 0 <= j < |r.published| ==> ValidRecords(cfg, r.published[j])
  {
    WorkIsNew(cfg, env);
    ProcessWorkValid(cfg, env, Work(cfg, env));
  }

  /**
   * A completed run's checkpoint set is the old one plus exactly the numbers
   * of the work list whose text was fetched and non-empty.
   */
  lemma RunRecordsContent(cfg: Config, env: Environment)
    requires ColonBeforeCelex(cfg)
    ensures var r := RunScraper(cfg, env);
            r.status == Completed ==>
              forall c :: c in r.processed <==>
                c in Load(env.checkpoint) || (c in Work(cfg, env) && Present(Content(cfg, env.net, c)))
  {
    WorkIsNew(cfg, env);
    ProcessWorkRecordsContent(cfg, env, Work(cfg, env));
  }

  /** The batch whose push failed leaves no trace in the checkpoint set: a restart fetches it again. */
  lemma RunFailedBatchNotRecorded(cfg: Config, env: Environment)
    requires ColonBeforeCelex(cfg)
    ensures var r := RunScraper(cfg, env);
            r.status.PublishFailed? ==>
              forall c :: c in Batches(Work(cfg, env))[r.status.batch] ==> c !in r.processed
  {
    WorkIsNew(cfg, env);
    ProcessWorkFailedNotRecorded(cfg, env, Work(cfg, env));
  }

  /**
   * When every push succeeds and every new number has content, each batch is
   * published whole: a work list of two batch sizes goes out as two uploads
   * of `BatchSize` records.
   */
  lemma RunPublishesEveryBatch(cfg: Config, env: Environment)
    requires env.loggedIn && (forall i :: env.pushOk(i)) && |Work(cfg, env)| != 0
    requires forall c :: c in Work(cfg, env) ==> Present(Content(cfg, env.net, c))
    ensures var r := RunScraper(cfg, env);
            |r.published| == |Batches(Work(cfg, env))| &&
            forall j :: 0 <= j < |r.published| ==> |r.published[j]| == |Batches(Work(cfg, env))[j]|
    ensures |Work(cfg, env)| == 2 * BatchSize ==>
              |RunScraper(cfg, env).published| == 2 && |RunScraper(cfg, env).published[0]| == BatchSize &&
              |RunScraper(cfg, env).published[1]| == BatchSize
  {
    ProcessWorkEveryBatch(cfg, env, Work(cfg, env));
    if |Work(cfg, env)| == 2 * BatchSize {
      TwoFullBatches(Work(cfg, env));
    }
  }

  /** Every number found is either in the checkpoint or on the work list. */
  lemma FoundCovered(cfg: Config, env: Environment)
    ensures forall c :: c in Found(cfg, env) ==> c in Load(env.checkpoint) || c in Work(cfg, env)
  {
  }

  /** A later run from a non-empty checkpoint scrapes only the dynamic pages, so it finds no more than this run. */
  lemma FoundShrinks(cfg: Config, env: Environment, file: StoredFile)
    requires Load(file) != {}
    ensures Found(cfg, env.(checkpoint := file)) <= Found(cfg, env)
  {
    DiscoverPrefix(env.net, UrlsToScrape(cfg, Load(env.checkpoint)), |cfg.dynamicUrls|);
  }

  /**
   * Rerunning after a completed run in which every new number had content
   * and every checkpoint write succeeded finds nothing new, provided the
   * listing pages answer as before.
   */
  lemma RerunFindsNothingNew(cfg: Config, env: Environment)
    requires ColonBeforeCelex(cfg)
    requires forall i :: env.saveOk(i)
    requires RunScraper(cfg, env).status == Completed
    requires forall c :: c in Work(cfg, env) ==> Present(Content(cfg, env.net, c))
    ensures var again := RunScraper(cfg, env.(checkpoint := RunScraper(cfg, env).file));
            again.status == NothingToDo && again.published == [] && again.file == RunScraper(cfg, env).file
  {
    var r := RunScraper(cfg, env);
    var work := Work(cfg, env);
    RunRecordsContent(cfg, env);
    assert work[0] in r.processed && work[0] !in Load(env.checkpoint);
    RunSaves(cfg, env);
    assert Load(r.file) == r.processed;
    FoundShrinks(cfg, env, r.file);
    FoundCovered(cfg, env);
    RunNothingToDo(cfg, env.(checkpoint := r.file));
  }
}

=== FILE: text.dfy ===
/**
 * The string operations the pipeline leans on, with the semantics of the
 * Python built-ins they stand for: `str.isspace`, `str.strip`,
 * `str.startswith`, the `in` operator on strings, `"\n".join` and
 * `str.split("\n")`.
 */
module Text {

  /** Python's `str.isspace` on one character: the characters with bidirectional
      class WS, B or S, or general category Zs. */
  predicate IsSpace(c: char) {
    || c == ' '
    || ('\t' <= c <= '\r')
    || ('\U{1C}' <= c <= '\U{1F}')
    || c == '\U{85}'
    || c == '\U{A0}'
    || c == '\U{1680}'
    || ('\U{2000}' <= c <= '\U{200A}')
    || c == '\U{2028}'
    || c == '\U{2029}'
    || c == '\U{202F}'
    || c == '\U{205F}'
    || c == '\U{3000}'
  }

  predicate AllSpace(s: string) {
    forall i :: 0 <= i < |s| ==> IsSpace(s[i])
  }

  /** Neither end of `s` is whitespace. */
  predicate IsStripped(s: string) {
    |s| == 0 || (!IsSpace(s[0]) && !IsSpace(s[|s| - 1]))
  }

  function TrimLeft(s: string): (r: string)
    ensures |r| <= |s| && r == s[|s| - |r|..]
    ensures AllSpace(s[..|s| - |r|])
    ensures |r| == 0 || !IsSpace(r[0])
  {
    if |s| > 0 && IsSpace(s[0]) then
      var r := TrimLeft(s[1..]);
      assert s[1..][|s| - 1 - |r|..] == s[|s| - |r|..];
      assert forall i :: 0 < i < |s| - |r| ==> s[..|s| - |r|][i] == s[i];
      r
    else s
  }

  function TrimRight(s: string): (r: string)
    ensures |r| <= |s| && r == s[..|r|]
    ensures AllSpace(s[|r|..])
    ensures |r| == 0 || !IsSpace(r[|r| - 1])
  {
    if |s| > 0 && IsSpace(s[|s| - 1]) then
      var r := TrimRight(s[..|s| - 1]);
      assert s[..|s| - 1][..|r|] == s[..|r|];
      assert forall i :: 0 <= i < |s| - 1 - |r| ==> s[|r|..][i] == s[..|s| - 1][|r|..][i];
      r
    else s
  }

  /** Python's `s.strip()`: `s` with its leading and trailing whitespace removed. */
  function Strip(s: string): (r: string)
    ensures IsStripped(r) && |r| <= |s|
  {
    TrimmedIsStripped(s);
    TrimRight(TrimLeft(s))
  }

  /** Trimming both ends leaves neither end whitespace. */
  lemma TrimmedIsStripped(s: string)
    ensures IsStripped(TrimRight(TrimLeft(s)))
  {
    var left := TrimLeft(s);
    var r := TrimRight(left);
    assert |r| > 0 ==> r[0] == left[0];
  }

  /** What `strip` removes is whitespace on either side of a slice of `s`. */
  lemma StripIsSlice(s: string)
    ensures exists k :: 0 <= k <= |s| - |Strip(s)| && s[k..k + |Strip(s)|] == Strip(s)
                        && AllSpace(s[..k]) && AllSpace(s[k + |Strip(s)|..])
  {
    StripParts(s, TrimLeft(s), Strip(s));
  }

  /** Trimming the left and then the right end leaves a slice with only whitespace around it. */
  lemma StripParts(s: string, left: string, r: string)
    requires |left| <= |s| && left == s[|s| - |left|..] && AllSpace(s[..|s| - |left|])
    requires |left| == 0 || !IsSpace(left[0])
    requires |r| <= |left| && r == left[..|r|] && AllSpace(left[|r|..])
    requires |r| == 0 || !IsSpace(r[|r| - 1])
    ensures IsStripped(r)
    ensures exists k :: 0 <= k <= |s| - |r| && s[k..k + |r|] == r
                        && AllSpace(s[..k]) && AllSpace(s[k + |r|..])
  {
    var k := |s| - |left|;
    assert |r| > 0 ==> r[0] == left[0];
    SliceOfSuffix(s, left, k, |r|);
    assert s[k..k + |r|] == r && s[k + |r|..] == left[|r|..];
    assert AllSpace(s[..k]) && AllSpace(s[k + |r|..]);
  }

  /** A slice of the suffix of `s` from `k` is the slice of `s` shifted by `k`. */
  lemma SliceOfSuffix(s: string, left: string, k: nat, n: nat)
    requires k <= |s| && left == s[k..] && n <= |left|
    ensures s[k..k + n] == left[..n] && s[k + n..] == left[n..]
  {
  }

  /** Stripping leaves nothing exactly when the string is all whitespace. */
  lemma StripEmpty(s: string)
    ensures Strip(s) == "" <==> AllSpace(s)
  {
    StripIsSlice(s);
  }

  /** Python's `s.startswith(p)`. */
  predicate StartsWith(s: string, p: string) {
    |p| <= |s| && s[..|p|] == p
  }

  /** `t` occurs in `s` at position `i`. */
  predicate OccursAt(s: string, t: string, i: int) {
    0 <= i && i + |t| <= |s| && s[i..i + |t|] == t
  }

  /** Python's `t in s` on strings. */
  function Contains(s: string, t: string): (r: bool)
    ensures r <==> exists i :: OccursAt(s, t, i)
  {
    if StartsWith(s, t) then
      assert OccursAt(s, t, 0);
      true
    else if |s| == 0 then
      false
    else
      var r := Contains(s[1..], t);
      if r then
        var i :| OccursAt(s[1..], t, i);
        assert OccursAt(s, t, i + 1);
        true
      else
        forall i | OccursAt(s, t, i) ensures OccursAt(s[1..], t, i - 1) {
          assert s[1..][i - 1..i - 1 + |t|] == s[i..i + |t|];
        }
        false
  }

  /** Putting anything in front of a string keeps its substrings. */
  lemma ContainsAfterPrefix(p: string, s: string, t: string)
    requires Contains(s, t)
    ensures Contains(p + s, t)
  {
    var i :| OccursAt(s, t, i);
    assert (p + s)[|p| + i..|p| + i + |t|] == s[i..i + |t|];
    assert OccursAt(p + s, t, |p| + i);
  }

  /** The concatenation of all `pieces`: Python's `"".join(pieces)`. */
  function Concat(pieces: seq<string>): string {
    if |pieces| == 0 then "" else pieces[0] + Concat(pieces[1..])
  }

  /** A concatenation is empty exactly when every piece is. */
  lemma {:induction false} ConcatEmpty(pieces: seq<string>)
    ensures Concat(pieces) == "" <==> forall k :: 0 <= k < |pieces| ==> pieces[k] == ""
  {
    if |pieces| > 0 {
      ConcatEmpty(pieces[1..]);
      assert forall k :: 0 < k < |pieces| ==> pieces[k] == pieces[1..][k - 1];
    }
  }

  /** Python's `"\n".join(pieces)`. */
  function Join(pieces: seq<string>): string {
    if |pieces| == 0 then ""
    else if |pieces| == 1 then pieces[0]
    else pieces[0] + "\n" + Join(pieces[1..])
  }

  /** Python's `s.split("\n")`: never empty; `""` splits into `[""]`. */
  function Split(s: string): (r: seq<string>)
    ensures |r| >= 1
  {
    if |s| == 0 then [""]
    else
      var rest := Split(s[1..]);
      if s[0] == '\n' then [""] + rest
      else [[s[0]] + rest[0]] + rest[1..]
  }

  lemma {:induction false} SplitWithoutNewline(p: string)
    requires '\n' !in p
    ensures Split(p) == [p]
  {
    if |p| > 0 {
      SplitWithoutNewline(p[1..]);
      assert [p[0]] + p[1..] == p;
    }
  }

  lemma {:induction false} SplitAfterLine(p: string, t: string)
    requires '\n' !in p
    ensures Split(p + "\n" + t) == [p] + Split(t)
  {
    var s := p + "\n" + t;
    if |p| == 0 {
      assert s[1..] == t;
    } else {
      assert s[1..] == p[1..] + "\n" + t;
      SplitAfterLine(p[1..], t);
      assert [p[0]] + p[1..] == p;
    }
  }

  /** Splitting a newline-join of newline-free pieces gives the pieces back. */
  lemma {:induction false} SplitJoin(pieces: seq<string>)
    requires |pieces| >= 1
    requires forall k :: 0 <= k < |pieces| ==> '\n' !in pieces[k]
    ensures Split(Join(pieces)) == pieces
  {
    if |pieces| == 1 {
      SplitWithoutNewline(pieces[0]);
    } else {
      SplitJoin(pieces[1..]);
      SplitAfterLine(pieces[0], Join(pieces[1..]));
      assert [pieces[0]] + pieces[1..] == pieces;
    }
  }

  /** The elements of `xs` that are not the empty string, in order. */
  function NonEmpty(xs: seq<string>): (r: seq<string>)
    ensures forall k :: 0 <= k < |r| ==> r[k] != "" && r[k] in xs
    ensures forall x :: x in xs && x != "" ==> x in r
  {
    if |xs| == 0 then []
    else if xs[0] == "" then NonEmpty(xs[1..])
    else [xs[0]] + NonEmpty(xs[1..])
  }

  /** `"\n".join(x for x in xs if x)`: the non-empty pieces, one per line. */
  function Lines(xs: seq<string>): string {
    Join(NonEmpty(xs))
  }

  /** A newline-join is empty exactly when it joins no non-empty piece. */
  lemma {:induction false} LinesEmpty(xs: seq<string>)
    ensures Lines(xs) == "" <==> NonEmpty(xs) == []
  {
    var ps := NonEmpty(xs);
    if |ps| >= 1 {
      assert |Join(ps)| >= |ps[0]| by {
        if |ps| > 1 { assert Join(ps) == ps[0] + "\n" + Join(ps[1..]); }
      }
    }
  }

  lemma {:induction false} JoinStripped(ps: seq<string>)
    requires forall k :: 0 <= k < |ps| ==> ps[k] != "" && IsStripped(ps[k])
    ensures IsStripped(Join(ps))
    ensures |ps| > 0 ==> |Join(ps)| > 0
  {
    if |ps| > 1 {
      JoinStripped(ps[1..]);
      var j := Join(ps);
      assert j == ps[0] + "\n" + Join(ps[1..]);
      assert j[0] == ps[0][0];
      assert j[|j| - 1] == Join(ps[1..])[|Join(ps[1..])| - 1];
    }
  }

  /**
   * Text assembled from stripped pieces: it is itself stripped, it is empty
   * only when every piece was, and when no piece holds a newline its lines
   * are exactly the non-empty pieces, so it has no empty line.
   */
  lemma LinesOfStripped(xs: seq<string>)
    requires forall k :: 0 <= k < |xs| ==> IsStripped(xs[k])
    ensures IsStripped(Lines(xs))
    ensures Lines(xs) == "" <==> forall k :: 0 <= k < |xs| ==> xs[k] == ""
    ensures (forall k :: 0 <= k < |xs| ==> '\n' !in xs[k]) && Lines(xs) != "" ==>
              Split(Lines(xs)) == NonEmpty(xs)
              && forall k :: 0 <= k < |Split(Lines(xs))| ==> Split(Lines(xs))[k] != ""
  {
    var ps := NonEmpty(xs);
    JoinStripped(ps);
    LinesEmpty(xs);
    if (forall k :: 0 <= k < |xs| ==> '\n' !in xs[k]) && Lines(xs) != "" {
      SplitJoin(ps);
    }
  }
}

=== FILE: wrappers.dfy ===
/** Failure-carrying values used throughout the model. */
module Wrappers {

  /** A value that may be absent: Python's `None` versus a present value. */
  datatype Option<+T> = None | Some(value: T) {

    /** The present value, or `default` when absent. */
    function GetOr(default: T): T {
      match this
      case Some(v) => v
      case None => default
    }
  }
}
